=== FILE: README.md ===
# TravellingCompanion in Dafny

TravellingCompanion is a small Django application for planning trips. A user
registers and logs in. They record trips, each with a date, associates and a
total cost. They add destinations (cities), attach cities to trips, and list,
edit and delete their trips. Four tables hold the data: users, trips, cities,
and the link table `CitiesForTrips` that joins trips to cities.

This project models the application's request handlers as pure transitions
over an in-memory store. Each handler maps a store, a session and the posted
fields to a new store, a new session and a response.
- The store is four sequences of rows, in table order.
- The session holds the three keys the handlers use: `user_id`, `trip_id` and
  `cities_data`.
- The database is modelled by what it enforces at write time:
  - a primary key is unique within its table;
  - a foreign key must name an existing row;
  - a deletion cascades to the rows that refer to the deleted one.

  A write that would break one of these answers `IntegrityError`.
- An ORM `get` that matches no row answers `DoesNotExist`. One that matches
  several rows answers `MultipleObjectsReturned`.
- A session key read with `[...]` that is absent answers a missing-key fault.
- An unhandled fault becomes a server-error response.

The modules follow the program's structure:
- `Wrappers`: the optional value and the success-or-failure value.
- `Rows`: generic table operations (`filter`, `exclude`, `get`, row update) and key uniqueness.
- `Models`: the four tables, the schema's guarantees (`Integrity`), the three application rules, and the ORM writes.
- `Text`: `str.join`, `str.split` and `str.replace(' ', '')`.
- `Queries`: the listing helpers `get_all_trips_for_user` and `get_all_trips_for_user_and_its_cities`.
- `TripUpdate`: the `update_trip` helper as written, and a corrected version.
- `Views`: the endpoints.
- `Requests`: the URL dispatcher over all endpoints as routed, a second one with the corrected edit, and the properties that span them.

Registration, adding a trip and adding a destination each check an
application rule before writing:
- usernames are unique;
- a user has at most one trip per day;
- a (city name, country) pair is unique.

`Consistent` is the schema's guarantees together with these three rules.
Apart from the trip edit, every handler is proved to keep a consistent store
consistent. The edit as `urls.py` routes it keeps the schema's guarantees but
can break the one-trip-per-day rule, after which adding a trip on that day
fails with `MultipleObjectsReturned`; with the corrected edit every handler
keeps the store consistent. In a consistent store no handler's `get` is
ambiguous.

## Model

| member | source | states |
|---|---|---|
| Rows.Select | TravellingCompanion/TravellingCompanionApp/views.py:18 | `filter` keeps exactly the rows whose key equals the value, in table order, and never more rows than the table has |
| Rows.Get | TravellingCompanion/TravellingCompanionApp/views.py:62 | `get` answers not-found exactly when no row has the key, several exactly when more than one row matches, and otherwise the one matching row of the table |
| Rows.Exclude | TravellingCompanion/TravellingCompanionApp/views.py:69 | `filter(...).delete()` keeps exactly the rows whose key is not in the deleted set |
| Rows.Overwrite | TravellingCompanion/TravellingCompanionApp/views.py:67 | updating the rows with a key replaces each of them by the new row in place and keeps every other row where it was, so the table keeps its length and order |
| Rows.KeySetExclude | TravellingCompanion/TravellingCompanionApp/views.py:318 | the keys left after a deletion are the old keys minus the deleted ones |
| Rows.UniqueSelect | TravellingCompanion/TravellingCompanionApp/models.py:5 | when a key is unique in a table, a filter on it matches at most one row |
| Rows.UniqueKeysByIndex | TravellingCompanion/TravellingCompanionApp/models.py:5 | the row-by-row uniqueness definition is equivalent to "no two positions carry the same key" |
| Rows.UniqueFiner | TravellingCompanion/TravellingCompanionApp/views.py:143 | a uniqueness rule on usernames implies uniqueness of the (username, password) pairs that login matches on |
| Rows.UniqueOverwrite | TravellingCompanion/TravellingCompanionApp/views.py:67 | updating a row in place keeps a key unique when no other row carries the new key |
| Rows.TwoRowsSameKey | TravellingCompanion/TravellingCompanionApp/views.py:200 | two different rows with the same key make a `get` on that key match several rows |
| Models.CreateUser | TravellingCompanion/TravellingCompanionApp/models.py:4-11 | creating a user appends it exactly when its primary key is unused, and fails with an integrity error otherwise |
| Models.CreateTrip | TravellingCompanion/TravellingCompanionApp/models.py:14-19 | creating a trip succeeds exactly when its key is unused and its owner exists |
| Models.CreateCity | TravellingCompanion/TravellingCompanionApp/models.py:22-26 | creating a city succeeds exactly when its key is unused |
| Models.CreateLink | TravellingCompanion/TravellingCompanionApp/models.py:29-32 | creating a link succeeds exactly when its key is unused and both the trip and the city it names exist |
| Models.SaveTrip | TravellingCompanion/TravellingCompanionApp/views.py:67 | `save` replaces the row with the trip's key in place, leaving every other row and table as it was, or inserts it when no row has the key; it fails when the owner is missing |
| Models.DeleteTrip | TravellingCompanion/TravellingCompanionApp/models.py:31 | deleting a trip removes exactly that trip and exactly the links that name it |
| Models.DeleteCity | TravellingCompanion/TravellingCompanionApp/models.py:32 | deleting a city removes exactly that city and the links that name it, and leaves trips alone |
| Models.DeleteUser | TravellingCompanion/TravellingCompanionApp/models.py:16 | deleting a user removes the user, all of their trips, and the links of those trips |
| Models.CreateUserKeepsIntegrity | TravellingCompanion/TravellingCompanionApp/models.py:4-11 | a successful user creation keeps keys unique and references resolving |
| Models.CreateTripKeepsIntegrity | TravellingCompanion/TravellingCompanionApp/models.py:14-19 | a successful trip creation keeps keys unique and references resolving |
| Models.CreateCityKeepsIntegrity | TravellingCompanion/TravellingCompanionApp/models.py:22-26 | a successful city creation keeps keys unique and references resolving |
| Models.CreateLinkKeepsIntegrity | TravellingCompanion/TravellingCompanionApp/models.py:29-32 | a successful link creation keeps keys unique and references resolving |
| Models.SaveTripKeepsIntegrity | TravellingCompanion/TravellingCompanionApp/views.py:63-67 | saving an edited trip keeps keys unique and every trip's owner existing |
| Models.DeleteTripKeepsIntegrity | TravellingCompanion/TravellingCompanionApp/models.py:31 | the cascade leaves no link naming a deleted trip |
| Models.DeleteCityKeepsIntegrity | TravellingCompanion/TravellingCompanionApp/models.py:32 | the cascade leaves no link naming a deleted city |
| Models.DeleteUserKeepsIntegrity | TravellingCompanion/TravellingCompanionApp/models.py:16 | the two-level cascade leaves no trip naming a deleted user and no link naming a deleted trip |
| Models.DeleteMissingTripIsNoop | TravellingCompanion/TravellingCompanionApp/views.py:318 | deleting a trip id that names no trip leaves the store unchanged |
| Text.Join | TravellingCompanion/TravellingCompanionApp/views.py:36 | joining no parts gives the empty string, and the joined string begins with the first part |
| Text.JoinSeparators | TravellingCompanion/TravellingCompanionApp/views.py:36 | joining separator-free parts puts exactly one separator between neighbours, so n parts carry n - 1 commas |
| Text.Split | TravellingCompanion/TravellingCompanionApp/views.py:36 | splitting always yields at least one piece, and no piece contains the separator |
| Text.SplitJoin | TravellingCompanion/TravellingCompanionApp/views.py:36 | joining separator-free names with commas and splitting the result gives back the names |
| Text.JoinSplit | TravellingCompanion/TravellingCompanionApp/views.py:36 | splitting any string and joining the pieces gives back the string |
| Text.RemoveSpaces | TravellingCompanion/TravellingCompanionApp/views.py:256 | the result has no space and keeps every other character with its count |
| Text.RemoveSpacesKeepsSpaceless | TravellingCompanion/TravellingCompanionApp/views.py:256 | removing spaces from a string without spaces changes nothing |
| Text.RemoveSpacesAppend | TravellingCompanion/TravellingCompanionApp/views.py:256 | removing spaces works piecewise over concatenation |
| Queries.InsertByDate | TravellingCompanion/TravellingCompanionApp/views.py:19 | inserting into a date-sorted list keeps it sorted and adds exactly the one trip |
| Queries.SortByDate | TravellingCompanion/TravellingCompanionApp/views.py:19 | sorting yields a date-ordered permutation of its input |
| Queries.InsertByDateStable | TravellingCompanion/TravellingCompanionApp/views.py:19 | inserting a trip into a sorted list puts it just before the trips of its own day, which keep their order |
| Queries.SortByDateStable | TravellingCompanion/TravellingCompanionApp/views.py:19 | the sort is stable: trips on the same day keep their input order |
| Queries.TripsForUser | TravellingCompanion/TravellingCompanionApp/views.py:17-22 | the listing is date-ordered and holds exactly the owner's trips, each as often as in the table; a missing user id lists nothing |
| Queries.TripsForUserStable | TravellingCompanion/TravellingCompanionApp/views.py:17-22 | for every day, the listing holds the owner's trips of that day in table order |
| Queries.LinkedCities | TravellingCompanion/TravellingCompanionApp/views.py:34-35 | fetching the links' cities succeeds exactly when every link's city id resolves, giving one table city per link with that id |
| Queries.Summaries | TravellingCompanion/TravellingCompanionApp/views.py:33-44 | one summary per trip, in order, carrying the trip's id, associates, date and cost and its destinations; it fails exactly when some trip's destinations fail |
| Queries.Destinations | TravellingCompanion/TravellingCompanionApp/views.py:34-36 | a trip's destinations are built exactly when every one of its links names a city that resolves to one row; a failure is `DoesNotExist` or `MultipleObjectsReturned`; a trip without links has the empty string |
| Queries.TripsWithDestinations | TravellingCompanion/TravellingCompanionApp/views.py:25-46 | the listing is built exactly when every trip of the owner has its destinations; it then has one entry per listed trip, in the listing's date order, each carrying that trip's id and destinations |
| Queries.LinkedCitiesResolve | TravellingCompanion/TravellingCompanionApp/views.py:35 | with the schema's guarantees and every link's city existing, fetching the cities cannot fail |
| Queries.DestinationsAreLinkedNames | TravellingCompanion/TravellingCompanionApp/views.py:34-36 | with the schema's guarantees and comma-free city names, a trip's destinations split back into one name per link, each that of the linked city, and are empty for a trip without links |
| Queries.TripsWithDestinationsResolve | TravellingCompanion/TravellingCompanionApp/views.py:25-46 | with the schema's guarantees the trip-and-cities listing is always built |
| TripUpdate.AddLinks | TravellingCompanion/TravellingCompanionApp/views.py:70-73 | the loop leaves users, trips and cities alone and appends the new links for a prefix of the selected cities, reporting success exactly when the prefix is the whole selection |
| TripUpdate.AddLinksSucceedsIff | TravellingCompanion/TravellingCompanionApp/views.py:70-74 | the loop completes exactly when every selected city exists and each new link id is unused when its turn comes |
| TripUpdate.UpdateTrip | TravellingCompanion/TravellingCompanionApp/views.py:60-76 | an unresolved trip or missing owner writes nothing; otherwise the trip row is rewritten in place, its links are replaced by links for a prefix of the selection, and the answer is true exactly when all cities exist and all ids are unused |
| TripUpdate.AddLinksStopsAtFirstFailure | TravellingCompanion/TravellingCompanionApp/views.py:70-75 | every city the loop linked exists, and where it stopped short the next city does not resolve to exactly one row or its new id was already taken, by an older link or by an earlier id of the same run |
| TripUpdate.UpdateTripStopsAtFirstFailure | TravellingCompanion/TravellingCompanionApp/views.py:67-75 | past the save, the trip keeps links for exactly the selected cities before the first one that could not be linked, and that one does not resolve to exactly one city or its id was taken |
| TripUpdate.UpdateTripLinks | TravellingCompanion/TravellingCompanionApp/views.py:69-73 | afterwards the trip's links are the new links for a prefix of the selection, all of it exactly on success, and other trips' links are unchanged and in order |
| TripUpdate.AddLinksKeepsIntegrity | TravellingCompanion/TravellingCompanionApp/views.py:70-73 | recreating links keeps the schema's guarantees |
| TripUpdate.UpdateTripKeepsIntegrity | TravellingCompanion/TravellingCompanionApp/views.py:60-76 | whatever it answers, the edit keeps the schema's guarantees |
| TripUpdate.UpdateTripCanBreakOneTripPerDay | TravellingCompanion/TravellingCompanionApp/views.py:62-67 | moving one trip onto another trip's owner and day succeeds and leaves two trips for that user on that day, so a `get` of the trip by user and day matches several rows |
| TripUpdate.UpdateTripFailureKeepsPartialWrites | TravellingCompanion/TravellingCompanionApp/views.py:67-75 | when the first selected city is missing the edit answers false, yet the trip is rewritten and has lost all its links |
| TripUpdate.UpdateTripChecked | TravellingCompanion/TravellingCompanionApp/views.py:60-76 | the corrected edit succeeds exactly when the trip, owner and cities exist, the owner has no other trip that day and the link ids are unused; a refusal writes nothing; on success the trip's links are exactly the selection's |
| TripUpdate.UpdateTripCheckedKeepsConsistency | TravellingCompanion/TravellingCompanionApp/views.py:60-76 | the corrected edit keeps the schema's guarantees and all three application rules |
| Views.Menu | TravellingCompanion/TravellingCompanionApp/views.py:107-109 | with the schema's guarantees the user menu always renders with the owner's trip summaries |
| Views.Login | TravellingCompanion/TravellingCompanionApp/views.py:140-154 | login never writes the store; unknown credentials re-render the index with a notice and keep the session; a success logs in a user with exactly those credentials; with unique usernames and the schema's guarantees, matching credentials log that user in and show the menu with exactly their trip-and-cities listing |
| Views.RegisterUser | TravellingCompanion/TravellingCompanionApp/views.py:171-182 | a taken username changes nothing and re-renders the index; otherwise the user is added and logged in, or the id clash is an integrity error; unique usernames stay unique; a fresh username and id in a store with the schema's guarantees show the menu with the new user's listing |
| Views.RegisterNewTrip | TravellingCompanion/TravellingCompanionApp/views.py:192-208 | without a logged-in user nothing happens; a trip already on that day changes nothing; otherwise the trip is added for the session user; one trip per day is preserved; a fresh id for an existing user shows the menu with that user's listing, read after the insert |
| Views.RegisterNewDestination | TravellingCompanion/TravellingCompanionApp/views.py:223-233 | a known (name, country) changes nothing; otherwise the city is added; unique places stay unique; a new city in a store with the schema's guarantees shows the session user's menu listing |
| Views.ManageTrips | TravellingCompanion/TravellingCompanionApp/views.py:242-244 | the trip list is date-ordered and is a permutation of the session user's trips, with trips of the same day in table order, so it is exactly the stable sort of those trips; it is empty without a logged-in user |
| Views.UserMenuView | TravellingCompanion/TravellingCompanionApp/views.py:107-109 | without a logged-in user the view fails on the missing key; otherwise, with the schema's guarantees, it shows the menu with exactly the user's trip-and-cities listing |
| Views.LinkedCityIds | TravellingCompanion/TravellingCompanionApp/views.py:257-258 | the ids of the fetched cities are exactly the city ids of the trip's links |
| Views.Snapshot | TravellingCompanion/TravellingCompanionApp/views.py:260-270 | the edit page offers one entry per city, in table order, with its id and name, flagged exactly when the city is in the linked set |
| Views.SnapshotListsEveryCity | TravellingCompanion/TravellingCompanionApp/views.py:260-270 | the snapshot offers exactly the ids of the city table, and an entry is flagged exactly when its city is linked to the trip |
| Views.GetEditData | TravellingCompanion/TravellingCompanionApp/views.py:254-273 | the trip id reaches the session before anything fails; an unresolved trip is an error; otherwise the page shows the trip with spaces stripped from the associates and an exact snapshot, which is also stored in the session; with the schema's guarantees an existing trip always renders |
| Views.SelectedCities | TravellingCompanion/TravellingCompanionApp/views.py:290-294 | a city is selected exactly when its snapshot entry exists and its field was posted |
| Views.SelectedCitiesInOrder | TravellingCompanion/TravellingCompanionApp/views.py:290-294 | the selection is the subsequence of snapshot city ids whose field was posted, in snapshot order |
| Views.SelectedCitiesAppend | TravellingCompanion/TravellingCompanionApp/views.py:290-294 | selection walks the snapshot in order, entry by entry |
| Views.EditContext | TravellingCompanion/TravellingCompanionApp/views.py:282-284 | the edit proceeds exactly when all three session keys are present, with their values; otherwise it reports the first missing key in reading order: `cities_data`, then `trip_id`, then `user_id` |
| Views.Modified | TravellingCompanion/TravellingCompanionApp/views.py:296-308 | a successful update on a store with the schema's guarantees shows the menu with the "modified" notice and exactly the user's trip-and-cities listing read after the update; a failed one shows the trip list read from the store as the update left it |
| Views.ModifyTrip | TravellingCompanion/TravellingCompanionApp/views.py:282-308 | a missing session key changes nothing; otherwise the store is what the update left and the trip list appears exactly when the update failed |
| Views.ModifyTripChecked | TravellingCompanion/TravellingCompanionApp/views.py:282-308 | with the corrected update, a refused edit, shown as the trip list, leaves the store unchanged |
| Views.DeleteData | TravellingCompanion/TravellingCompanionApp/views.py:318-321 | exactly the trip and its links are removed, users and cities are untouched, the response redirects to the menu, and a missing id is a no-op |
| Requests.Handle | TravellingCompanion/TravellingCompanionApp/urls.py:4-19 | each request reaches the handler its URL pattern names, the edit reaching `modify_trip` as written; login, the listings and the edit page never write the store |
| Requests.HandleChecked | TravellingCompanion/TravellingCompanionApp/urls.py:17 | the same routes with the edit going through the corrected update: every other request is handled as routed, and a refused edit leaves the store unchanged |
| Requests.HandleKeepsIntegrity | TravellingCompanion/TravellingCompanionApp/views.py:134-321 | every request as routed keeps the schema's guarantees, unique usernames and unique places, on any store that has them, including one where an edit already gave an owner two trips on a day |
| Requests.HandleTwiceKeepsIntegrity | TravellingCompanion/TravellingCompanionApp/views.py:134-321 | those guarantees survive a second request on the store and session the first left, so they are an invariant of the application as routed |
| Requests.HandleKeepsConsistency | TravellingCompanion/TravellingCompanionApp/views.py:134-321 | every request, with the corrected edit, keeps the schema's guarantees and all three application rules |
| Requests.AsWrittenEditKeepsOtherRules | TravellingCompanion/TravellingCompanionApp/views.py:276-308 | the trip edit as written keeps the schema's guarantees, unique usernames and unique places, whether or not one trip per day holds beforehand |
| Requests.ConsistentStoreIsNeverAmbiguous | TravellingCompanion/TravellingCompanionApp/views.py:143 | in a consistent store no request ends in `MultipleObjectsReturned`, whether the edit is as written or corrected |
| Requests.AsWrittenEditMakesNewTripAmbiguous | TravellingCompanion/TravellingCompanionApp/views.py:198-203 | after the as-written edit moves a trip onto another trip's owner and day, registering a new trip for that owner on that day ends in `MultipleObjectsReturned` |
| Requests.AmbiguousDayFailsNewTrip | TravellingCompanion/TravellingCompanionApp/views.py:198-203 | when the signed-in user already has several trips on a day, registering another on that day is a `MultipleObjectsReturned` server error |
| Requests.UpdateTripThenListing | TravellingCompanion/TravellingCompanionApp/views.py:25-76 | in a store with the schema's guarantees and comma-free city names, an `update_trip` of an existing trip to an existing owner, with existing cities and unused link ids, succeeds; the owner's trip-and-cities listing is then built and holds the edited trip, whose destinations are empty without a selection and otherwise split into the selected cities' names, one per city, in selection order |
| Requests.DestinationsListSelection | TravellingCompanion/TravellingCompanionApp/views.py:34-36 | in a store with the schema's guarantees and comma-free city names, a trip linked to exactly the selected cities has destinations that split back into those cities' names in order |
| Requests.FlaggedSnapshotSelectsLinkedCities | TravellingCompanion/TravellingCompanionApp/views.py:266-294 | posting back the flags of a trip's snapshot selects exactly the trip's linked cities |
| Requests.ResubmittedSnapshotSelectsLinkedCities | TravellingCompanion/TravellingCompanionApp/views.py:254-294 | opening an existing trip's edit page and resubmitting it unchanged selects exactly the cities the trip is linked to |
| Requests.FixtureLookups | TravellingCompanion/TravellingCompanionApp/tests.py:45-57 | on the repository's test fixture, the credentials test1/test1 find user 1 and (city1, country1) finds city1 |
| Requests.FixtureTrips | TravellingCompanion/TravellingCompanionApp/tests.py:49-53 | on the fixture, user 1's trip listing is exactly trip1 and user 2's is empty |
| Requests.FixtureDestinations | TravellingCompanion/TravellingCompanionApp/tests.py:59-62 | on the fixture, trip1's destinations are "city1,city2", its cities in link order |

## Left out

- The static pages `index`, `register`, `add_new_trip` and `add_new_destination` only render a template. They appear only as the `Show` response.
- Templates, message texts and HTTP status codes are not modelled. Responses are tagged values.
- The `redirect` of `delete_data` passes `trips` to a path redirect, which drops it. The model answers only "redirect to the menu".
- URL routing is not modelled beyond the request kinds of `Requests.Handle`.
- `uuid4()` is a parameter. The registration handlers take the new id, and the edit takes a supply of link ids. Whether the ids are unused is part of the proved conditions, not assumed.
- POST parsing is not modelled. Fields arrive already typed. Dates are integers and costs are integers. An absent POST field (`None`) and the database's reaction to it are not modelled.
- Django form validation, `max_length` limits and date formats are not modelled.
- Passwords are stored and compared in clear text in the source. The model does the same and states nothing about it.
- Concurrency and transactions are not modelled. Each ORM call is one atomic step, as under autocommit.
- The session is returned as the handler left it, even on a server error. Django does not save the session of a failed response. That persistence step is outside the model.
- `filter(user_id=None)` becomes the SQL test `user_id IS NULL`. It matches no row because `Trip.user` is a non-nullable foreign key (models.py:16), so no trip has a NULL owner. A missing session user therefore lists no trips; it does not list all trips.
- The `except Trip.DoesNotExist` in `get_all_trips_for_user` is unreachable, because `filter` and `sorted` do not raise it. The model has no such branch.
- City deletion and user deletion have no endpoint. They are modelled only as the cascades the schema declares.
- Requests.Handle: its contract states only that the read-only handlers do not write the store. What each request does is stated by the handlers' own contracts, and `HandleRoutesEdit` states where the edit goes.
- TripUpdate.AddLinks: it requires the trip to exist. `update_trip` calls its loop only after the trip was found and saved.

## Findings

| source | as written | input that shows it | evidently intended | confidence | as-written member | corrected member |
|---|---|---|---|---|---|---|
| TravellingCompanion/TravellingCompanionApp/views.py:62-67 | `update_trip` sets the trip's date and owner and saves them without the one-trip-per-day check that `register_new_trip` makes | two trips a and b; edit b with a's date and a's owner; registering a new trip for that owner on that day then ends in `MultipleObjectsReturned` (`Requests.AsWrittenEditMakesNewTripAmbiguous`) | an edit that would give the owner a second trip that day is refused, as adding one is | not executed | TripUpdate.UpdateTripCanBreakOneTripPerDay | TripUpdate.UpdateTripChecked |
| TravellingCompanion/TravellingCompanionApp/views.py:67-75 | the trip is saved and its links are deleted before the selected cities are fetched, and the `except` only sets `False`, with no rollback | edit a linked trip with a selection whose first city id names no city | a failed edit leaves the trip and its links as they were | not executed | TripUpdate.UpdateTripFailureKeepsPartialWrites | TripUpdate.UpdateTripChecked |

=== FILE: models.dfy ===
/**
 * The four tables of the application (users, trips, cities and the
 * trip-to-city link table), the constraints the database itself enforces on
 * writes (unique primary keys, foreign keys that resolve), the cascading
 * deletes declared on the foreign keys, and the uniqueness rules that only the
 * request handlers enforce.
 *
 * Dates are modelled as integers (days), so that they are totally ordered.
 */
module Models {
  import opened Wrappers
  import opened Rows

  datatype User = User(id: string, name: string, surname: string, dateOfBirth: int,
                       username: string, password: string, email: string)

  /** A trip; `userId` is the owning user (foreign key, ON DELETE CASCADE). */
  datatype Trip = Trip(id: string, userId: string, associates: string, tripDate: int, totalCost: int)

  datatype City = City(id: string, cityName: string, country: string, population: int)

  /** A row of the many-to-many link table between trips and cities (both keys cascade). */
  datatype CityForTrip = CityForTrip(id: string, tripId: string, cityId: string)

  /** The whole database: every table in insertion order. */
  datatype Store = Store(users: seq<User>, trips: seq<Trip>, cities: seq<City>, links: seq<CityForTrip>)

  /** The exceptions a request can end in when nothing catches them. */
  datatype Fault =
    | DoesNotExist              // `get` matched no row
    | MultipleObjectsReturned   // `get` matched several rows
    | IntegrityError            // the database refused a write
    | MissingSessionKey(key: string)

  // ------------------------------------------------------------ column keys

  function UserPk(u: User): string { u.id }
  function TripPk(t: Trip): string { t.id }
  function CityPk(c: City): string { c.id }
  function LinkPk(l: CityForTrip): string { l.id }

  function TripOwner(t: Trip): string { t.userId }
  function LinkTrip(l: CityForTrip): string { l.tripId }
  function LinkCity(l: CityForTrip): string { l.cityId }

  function Username(u: User): string { u.username }
  function Credentials(u: User): (string, string) { (u.username, u.password) }
  /** The natural key of a city: its name together with its country. */
  function Place(c: City): (string, string) { (c.cityName, c.country) }
  /** The natural key of a trip: who travels, and on which day. */
  function TripDay(t: Trip): (string, int) { (t.userId, t.tripDate) }

  function UserIds(db: Store): set<string> { KeySet(db.users, UserPk) }
  function TripIds(db: Store): set<string> { KeySet(db.trips, TripPk) }
  function CityIds(db: Store): set<string> { KeySet(db.cities, CityPk) }
  function LinkIds(db: Store): set<string> { KeySet(db.links, LinkPk) }

  // ------------------------------------------------------------ constraints

  /** Every table is keyed by a string primary key unique within the table. */
  predicate PrimaryKeysUnique(db: Store)
  {
    && UniqueKeys(db.users, UserPk)
    && UniqueKeys(db.trips, TripPk)
    && UniqueKeys(db.cities, CityPk)
    && UniqueKeys(db.links, LinkPk)
  }

  /** Every foreign key names an existing row. */
  predicate ReferencesResolve(db: Store)
  {
    && KeySet(db.trips, TripOwner) <= UserIds(db)
    && KeySet(db.links, LinkTrip) <= TripIds(db)
    && KeySet(db.links, LinkCity) <= CityIds(db)
  }

  /** What the database schema guarantees. */
  predicate Integrity(db: Store)
  {
    PrimaryKeysUnique(db) && ReferencesResolve(db)
  }

  /** No two users share a username (checked by registration only). */
  predicate UsernamesUnique(db: Store) { UniqueKeys(db.users, Username) }

  /** No two cities share name and country (checked by adding a destination only). */
  predicate PlacesUnique(db: Store) { UniqueKeys(db.cities, Place) }

  /** A user has at most one trip per day (checked by adding a trip only). */
  predicate OneTripPerDay(db: Store) { UniqueKeys(db.trips, TripDay) }

  /** The schema's guarantees together with the three application rules. */
  predicate Consistent(db: Store)
  {
    Integrity(db) && UsernamesUnique(db) && PlacesUnique(db) && OneTripPerDay(db)
  }

  // ---------------------------------------------------------------- writes

  /** `User.objects.create`: appends the row unless its primary key is taken. */
  function CreateUser(db: Store, u: User): (r: Result<Store, Fault>)
    ensures r.Ok? <==> u.id !in UserIds(db)
    ensures r.Ok? ==> r.value == db.(users := db.users + [u])
    ensures r.Err? ==> r.error == IntegrityError
  {
    if u.id in UserIds(db) then Err(IntegrityError)
    else Ok(db.(users := db.users + [u]))
  }

  /** `Trip.objects.create`: appends the row unless its key is taken or its owner is missing. */
  function CreateTrip(db: Store, t: Trip): (r: Result<Store, Fault>)
    ensures r.Ok? <==> t.id !in TripIds(db) && t.userId in UserIds(db)
    ensures r.Ok? ==> r.value == db.(trips := db.trips + [t])
    ensures r.Err? ==> r.error == IntegrityError
  {
    if t.id in TripIds(db) || t.userId !in UserIds(db) then Err(IntegrityError)
    else Ok(db.(trips := db.trips + [t]))
  }

  /** `City.objects.create`: appends the row unless its primary key is taken. */
  function CreateCity(db: Store, c: City): (r: Result<Store, Fault>)
    ensures r.Ok? <==> c.id !in CityIds(db)
    ensures r.Ok? ==> r.value == db.(cities := db.cities + [c])
    ensures r.Err? ==> r.error == IntegrityError
  {
    if c.id in CityIds(db) then Err(IntegrityError)
    else Ok(db.(cities := db.cities + [c]))
  }

  /** `CitiesForTrips.objects.create`: appends the link unless its key is taken or a reference dangles. */
  function CreateLink(db: Store, l: CityForTrip): (r: Result<Store, Fault>)
    ensures r.Ok? <==> l.id !in LinkIds(db) && l.tripId in TripIds(db) && l.cityId in CityIds(db)
    ensures r.Ok? ==> r.value == db.(links := db.links + [l])
    ensures r.Err? ==> r.error == IntegrityError
  {
    if l.id in LinkIds(db) || l.tripId !in TripIds(db) || l.cityId !in CityIds(db) then Err(IntegrityError)
    else Ok(db.(links := db.links + [l]))
  }

  /**
   * `trip.save()`: an UPDATE of the row with the trip's primary key when there
   * is one, an INSERT otherwise; refused when the owner does not exist.
   */
  function SaveTrip(db: Store, t: Trip): (r: Result<Store, Fault>)
    ensures r.Ok? <==> t.userId in UserIds(db)
    ensures r.Ok? ==> r.value.users == db.users && r.value.cities == db.cities && r.value.links == db.links
    ensures r.Ok? && t.id in TripIds(db) ==> Replaced(db.trips, r.value.trips, TripPk, t.id, t)
    ensures r.Ok? && t.id !in TripIds(db) ==> r.value.trips == db.trips + [t]
    ensures r.Err? ==> r.error == IntegrityError
  {
    if t.userId !in UserIds(db) then Err(IntegrityError)
    else if t.id in TripIds(db) then Ok(db.(trips := Overwrite(db.trips, TripPk, t.id, t)))
    else Ok(db.(trips := db.trips + [t]))
  }

  /** Deleting a trip; its links go with it (ON DELETE CASCADE on the link's trip). */
  function DeleteTrip(db: Store, tripId: string): (r: Store)
    ensures r.users == db.users && r.cities == db.cities
    ensures forall t :: t in r.trips <==> t in db.trips && t.id != tripId
    ensures forall l :: l in r.links <==> l in db.links && l.tripId != tripId
  {
    db.(trips := Exclude(db.trips, TripPk, {tripId}),
        links := Exclude(db.links, LinkTrip, {tripId}))
  }

  /** Deleting a city; the links naming it go with it, trips are untouched. */
  function DeleteCity(db: Store, cityId: string): (r: Store)
    ensures r.users == db.users && r.trips == db.trips
    ensures forall c :: c in r.cities <==> c in db.cities && c.id != cityId
    ensures forall l :: l in r.links <==> l in db.links && l.cityId != cityId
  {
    db.(cities := Exclude(db.cities, CityPk, {cityId}),
        links := Exclude(db.links, LinkCity, {cityId}))
  }

  /** Deleting a user; the user's trips go with it, and the links of those trips with them. */
  function DeleteUser(db: Store, userId: string): (r: Store)
    ensures r.cities == db.cities
    ensures forall u :: u in r.users <==> u in db.users && u.id != userId
    ensures forall t :: t in r.trips <==> t in db.trips && t.userId != userId
    ensures forall l :: l in r.links <==>
              l in db.links && l.tripId !in KeySet(Select(db.trips, TripOwner, userId), TripPk)
  {
    var gone := KeySet(Select(db.trips, TripOwner, userId), TripPk);
    db.(users := Exclude(db.users, UserPk, {userId}),
        trips := Exclude(db.trips, TripOwner, {userId}),
        links := Exclude(db.links, LinkTrip, gone))
  }

  // ----------------------------------------------------- integrity lemmas

  lemma CreateUserKeepsIntegrity(db: Store, u: User)
    requires Integrity(db) && CreateUser(db, u).Ok?
    ensures Integrity(CreateUser(db, u).value)
  {
    UniqueAppend(db.users, u, UserPk);
    KeySetAppend(db.users, u, UserPk);
  }

  lemma CreateTripKeepsIntegrity(db: Store, t: Trip)
    requires Integrity(db) && CreateTrip(db, t).Ok?
    ensures Integrity(CreateTrip(db, t).value)
  {
    UniqueAppend(db.trips, t, TripPk);
    KeySetAppend(db.trips, t, TripPk);
    KeySetAppend(db.trips, t, TripOwner);
  }

  lemma CreateCityKeepsIntegrity(db: Store, c: City)
    requires Integrity(db) && CreateCity(db, c).Ok?
    ensures Integrity(CreateCity(db, c).value)
  {
    UniqueAppend(db.cities, c, CityPk);
    KeySetAppend(db.cities, c, CityPk);
  }

  lemma CreateLinkKeepsIntegrity(db: Store, l: CityForTrip)
    requires Integrity(db) && CreateLink(db, l).Ok?
    ensures Integrity(CreateLink(db, l).value)
  {
    UniqueAppend(db.links, l, LinkPk);
    KeySetAppend(db.links, l, LinkTrip);
    KeySetAppend(db.links, l, LinkCity);
  }

  lemma SaveTripKeepsIntegrity(db: Store, t: Trip)
    requires Integrity(db) && SaveTrip(db, t).Ok?
    ensures Integrity(SaveTrip(db, t).value)
  {
    var r := SaveTrip(db, t).value;
    if t.id in TripIds(db) {
      KeySetOverwrite(db.trips, TripPk, t.id, t);
      UniqueOverwrite(db.trips, TripPk, t.id, t, TripPk);
      KeySetOverwriteOther(db.trips, TripPk, t.id, t, TripOwner);
    } else {
      UniqueAppend(db.trips, t, TripPk);
      KeySetAppend(db.trips, t, TripPk);
      KeySetAppend(db.trips, t, TripOwner);
    }
  }

  lemma DeleteTripKeepsIntegrity(db: Store, tripId: string)
    requires Integrity(db)
    ensures Integrity(DeleteTrip(db, tripId))
  {
    var r := DeleteTrip(db, tripId);
    UniqueExclude(db.trips, TripPk, TripPk, {tripId});
    UniqueExclude(db.links, LinkPk, LinkTrip, {tripId});
    KeySetExclude(db.trips, TripPk, {tripId});
    KeySetExclude(db.links, LinkTrip, {tripId});
    assert KeySet(r.links, LinkCity) <= KeySet(db.links, LinkCity);
    assert KeySet(r.trips, TripOwner) <= KeySet(db.trips, TripOwner);
  }

  lemma DeleteCityKeepsIntegrity(db: Store, cityId: string)
    requires Integrity(db)
    ensures Integrity(DeleteCity(db, cityId))
  {
    var r := DeleteCity(db, cityId);
    UniqueExclude(db.cities, CityPk, CityPk, {cityId});
    UniqueExclude(db.links, LinkPk, LinkCity, {cityId});
    KeySetExclude(db.cities, CityPk, {cityId});
    KeySetExclude(db.links, LinkCity, {cityId});
    assert KeySet(r.links, LinkTrip) <= KeySet(db.links, LinkTrip);
  }

  lemma DeleteUserKeepsIntegrity(db: Store, userId: string)
    requires Integrity(db)
    ensures Integrity(DeleteUser(db, userId))
  {
    var r := DeleteUser(db, userId);
    var gone := KeySet(Select(db.trips, TripOwner, userId), TripPk);
    UniqueExclude(db.users, UserPk, UserPk, {userId});
    UniqueExclude(db.trips, TripPk, TripOwner, {userId});
    UniqueExclude(db.links, LinkPk, LinkTrip, gone);
    KeySetExclude(db.users, UserPk, {userId});
    KeySetExclude(db.trips, TripOwner, {userId});
    KeySetExclude(db.links, LinkTrip, gone);
    forall k | k in KeySet(r.links, LinkTrip) ensures k in TripIds(r) {
      var t :| t in db.trips && t.id == k;
      assert t in r.trips;
    }
    assert KeySet(r.links, LinkCity) <= KeySet(db.links, LinkCity);
  }

  /** Deleting a trip id that names no trip changes nothing. */
  lemma DeleteMissingTripIsNoop(db: Store, tripId: string)
    requires Integrity(db) && tripId !in TripIds(db)
    ensures DeleteTrip(db, tripId) == db
  {
    ExcludeNothing(db.trips, TripPk, {tripId});
    forall l | l in db.links ensures l.tripId !in {tripId} {
      assert l.tripId in KeySet(db.links, LinkTrip);
    }
    ExcludeNothing(db.links, LinkTrip, {tripId});
  }
}

=== FILE: queries.dfy ===
/**
 * The two read helpers of the request layer: the trips of a user sorted by
 * date, and the same trips joined with the names of their destinations.
 */
module Queries {
  import opened Wrappers
  import opened Rows
  import opened Models
  import Text

  /**
   * The owner as a `filter(user_id=...)` sees it: a session without a user
   * filters on `IS NULL`, which no trip matches since every trip has an owner.
   */
  function Owner(t: Trip): Option<string> { Some(t.userId) }

  function TripDate(t: Trip): int { t.tripDate }

  predicate SortedByDate(ts: seq<Trip>)
  {
    forall i, j :: 0 <= i < j < |ts| ==> ts[i].tripDate <= ts[j].tripDate
  }

  /** A lower bound on the dates of a list holds for every permutation of it. */
  lemma BoundedByDate(lo: int, xs: seq<Trip>, ys: seq<Trip>)
    requires multiset(xs) == multiset(ys)
    requires forall i :: 0 <= i < |ys| ==> lo <= ys[i].tripDate
    ensures forall i :: 0 <= i < |xs| ==> lo <= xs[i].tripDate
  {
    forall i | 0 <= i < |xs| ensures lo <= xs[i].tripDate {
      assert xs[i] in multiset(ys);
      var j :| 0 <= j < |ys| && ys[j] == xs[i];
    }
  }

  /** Places `t` before the first trip that is not earlier than it. */
  function InsertByDate(t: Trip, ts: seq<Trip>): (r: seq<Trip>)
    requires SortedByDate(ts)
    ensures SortedByDate(r)
    ensures multiset(r) == multiset(ts) + multiset{t}
    decreases |ts|
  {
    if |ts| == 0 then [t]
    else if t.tripDate <= ts[0].tripDate then [t] + ts
    else
      var rest := InsertByDate(t, ts[1..]);
      assert ts == [ts[0]] + ts[1..];
      assert multiset(rest) == multiset(ts[1..] + [t]);
      BoundedByDate(ts[0].tripDate, rest, ts[1..] + [t]);
      [ts[0]] + rest
  }

  /** A stable sort on the trip date (Python's `sorted` with a key). */
  function SortByDate(ts: seq<Trip>): (r: seq<Trip>)
    ensures SortedByDate(r)
    ensures multiset(r) == multiset(ts)
    decreases |ts|
  {
    if |ts| == 0 then []
    else
      assert ts == [ts[0]] + ts[1..];
      InsertByDate(ts[0], SortByDate(ts[1..]))
  }

  /**
   * `get_all_trips_for_user`: the trips owned by `owner`, sorted by date. The
   * filter never raises, so the handler's fallback to an empty list is dead code.
   */
  function TripsForUser(db: Store, owner: Option<string>): (r: seq<Trip>)
    ensures SortedByDate(r)
    ensures forall t :: t in r <==> t in db.trips && owner == Some(t.userId)
    ensures multiset(r) == multiset(Select(db.trips, Owner, owner))
    ensures owner.None? ==> r == []
  {
    var owned := Select(db.trips, Owner, owner);
    var r := SortByDate(owned);
    assert forall t :: t in r <==> t in multiset(r);
    assert forall t :: t in owned <==> t in multiset(owned);
    assert |owned| > 0 ==> owned[0] in owned;
    r
  }

  lemma {:induction false} InsertByDateStable(t: Trip, ts: seq<Trip>, d: int)
    requires SortedByDate(ts)
    ensures Select(InsertByDate(t, ts), TripDate, d) == Select([t], TripDate, d) + Select(ts, TripDate, d)
    decreases |ts|
  {
    if |ts| == 0 {
      assert Select(ts, TripDate, d) == [];
    } else if t.tripDate <= ts[0].tripDate {
      SelectAppend([t], ts, TripDate, d);
    } else {
      var rest := InsertByDate(t, ts[1..]);
      InsertByDateStable(t, ts[1..], d);
      assert [ts[0]] + ts[1..] == ts;
      SelectPastEarlier(t, ts[0], rest, ts[1..], d);
    }
  }

  /** Moving a trip past an earlier one does not change the order within any single day. */
  lemma SelectPastEarlier(t: Trip, h: Trip, rest: seq<Trip>, tail: seq<Trip>, d: int)
    requires h.tripDate < t.tripDate
    requires Select(rest, TripDate, d) == Select([t], TripDate, d) + Select(tail, TripDate, d)
    ensures Select([h] + rest, TripDate, d) == Select([t], TripDate, d) + Select([h] + tail, TripDate, d)
  {
    SelectAppend([h], rest, TripDate, d);
    SelectAppend([h], tail, TripDate, d);
    assert [h][1..] == [] && [t][1..] == [];
    if h.tripDate == d {
      assert Select([t], TripDate, d) == [];
    } else {
      assert Select([h], TripDate, d) == [];
    }
  }

  /** Trips on the same day keep their relative table order. */
  lemma {:induction false} SortByDateStable(ts: seq<Trip>, d: int)
    ensures Select(SortByDate(ts), TripDate, d) == Select(ts, TripDate, d)
    decreases |ts|
  {
    if |ts| > 0 {
      SortByDateStable(ts[1..], d);
      InsertByDateStable(ts[0], SortByDate(ts[1..]), d);
      assert [ts[0]] + ts[1..] == ts;
      SelectAppend([ts[0]], ts[1..], TripDate, d);
    }
  }

  /** The listing holds, for every day, exactly the owner's trips of that day in table order. */
  lemma TripsForUserStable(db: Store, owner: Option<string>, d: int)
    ensures Select(TripsForUser(db, owner), TripDate, d) ==
            Select(Select(db.trips, Owner, owner), TripDate, d)
  {
    SortByDateStable(Select(db.trips, Owner, owner), d);
  }

  // ------------------------------------------------------------ destinations

  /**
   * The cities the given links point at, fetched one link at a time as the
   * `link.city_id` descriptor does (a `get` on the city's primary key).
   */
  function LinkedCities(db: Store, links: seq<CityForTrip>): (r: Result<seq<City>, Fault>)
    ensures r.Ok? <==> forall k :: 0 <= k < |links| ==> Get(db.cities, CityPk, links[k].cityId).Found?
    ensures r.Ok? ==> (|r.value| == |links| &&
              forall k :: 0 <= k < |links| ==> r.value[k] in db.cities && r.value[k].id == links[k].cityId)
    ensures r.Err? ==> r.error == DoesNotExist || r.error == MultipleObjectsReturned
    decreases |links|
  {
    if |links| == 0 then Ok([])
    else
      assert forall k :: 1 <= k < |links| ==> links[1..][k - 1] == links[k];
      match Get(db.cities, CityPk, links[0].cityId)
      case NotFound => Err(DoesNotExist)
      case Multiple => Err(MultipleObjectsReturned)
      case Found(c) =>
        match LinkedCities(db, links[1..])
        case Err(f) => Err(f)
        case Ok(cs) => Ok([c] + cs)
  }

  function Names(cs: seq<City>): (r: seq<string>)
    ensures |r| == |cs| && forall k :: 0 <= k < |cs| ==> r[k] == cs[k].cityName
  {
    seq(|cs|, k requires 0 <= k < |cs| => cs[k].cityName)
  }

  /** The links of one trip, in link-table order. */
  function LinksOf(db: Store, tripId: string): seq<CityForTrip>
  {
    Select(db.links, LinkTrip, tripId)
  }

  /** The `destinations` column of the trip listing: its city names joined with commas. */
  function Destinations(db: Store, tripId: string): (r: Result<string, Fault>)
    ensures r.Ok? <==> forall l :: l in LinksOf(db, tripId) ==> Get(db.cities, CityPk, l.cityId).Found?
    ensures r.Err? ==> r.error == DoesNotExist || r.error == MultipleObjectsReturned
    ensures r.Ok? && LinksOf(db, tripId) == [] ==> r.value == ""
  {
    var links := LinksOf(db, tripId);
    assert (forall l :: l in links ==> Get(db.cities, CityPk, l.cityId).Found?) <==>
           (forall k :: 0 <= k < |links| ==> Get(db.cities, CityPk, links[k].cityId).Found?) by {
      if forall k :: 0 <= k < |links| ==> Get(db.cities, CityPk, links[k].cityId).Found? {
        forall l | l in links ensures Get(db.cities, CityPk, l.cityId).Found? {
          var k :| 0 <= k < |links| && links[k] == l;
        }
      }
    }
    match LinkedCities(db, LinksOf(db, tripId))
    case Ok(cs) => Ok(Text.Join(Names(cs), ','))
    case Err(f) => Err(f)
  }

  /** One entry of the trip listing. */
  datatype TripSummary = TripSummary(id: string, associates: string, tripDate: int, totalCost: int,
                                     destinations: string)

  function Summaries(db: Store, trips: seq<Trip>): (r: Result<seq<TripSummary>, Fault>)
    ensures r.Ok? <==> forall i :: 0 <= i < |trips| ==> Destinations(db, trips[i].id).Ok?
    ensures r.Ok? ==> (|r.value| == |trips| &&
              forall i :: 0 <= i < |trips| ==>
                r.value[i] == TripSummary(trips[i].id, trips[i].associates, trips[i].tripDate,
                                          trips[i].totalCost, Destinations(db, trips[i].id).value))
    decreases |trips|
  {
    if |trips| == 0 then Ok([])
    else
      var t := trips[0];
      match Destinations(db, t.id)
      case Err(f) => Err(f)
      case Ok(d) =>
        match Summaries(db, trips[1..])
        case Err(f) => Err(f)
        case Ok(rest) => Ok([TripSummary(t.id, t.associates, t.tripDate, t.totalCost, d)] + rest)
  }

  /** `get_all_trips_for_user_and_its_cities`: the sorted trips of `owner` with their destinations. */
  function TripsWithDestinations(db: Store, owner: Option<string>): (r: Result<seq<TripSummary>, Fault>)
    ensures r.Ok? <==> forall t :: t in TripsForUser(db, owner) ==> Destinations(db, t.id).Ok?
    ensures r.Ok? ==> |r.value| == |TripsForUser(db, owner)|
    ensures r.Ok? ==> forall i :: 0 <= i < |r.value| ==>
              && r.value[i].id == TripsForUser(db, owner)[i].id
              && r.value[i].destinations == Destinations(db, r.value[i].id).value
  {
    SummariesOkIff(db, TripsForUser(db, owner));
    Summaries(db, TripsForUser(db, owner))
  }

  /** A listing is produced exactly when every listed trip has its destinations. */
  lemma SummariesOkIff(db: Store, trips: seq<Trip>)
    ensures Summaries(db, trips).Ok? <==> forall t :: t in trips ==> Destinations(db, t.id).Ok?
  {
    if forall i :: 0 <= i < |trips| ==> Destinations(db, trips[i].id).Ok? {
      forall t | t in trips ensures Destinations(db, t.id).Ok? {
        var i :| 0 <= i < |trips| && trips[i] == t;
      }
    }
  }

  // ----------------------------------------------------------------- lemmas

  /** With unique primary keys and resolving references every link's city is found. */
  lemma LinkedCitiesResolve(db: Store, links: seq<CityForTrip>)
    requires Integrity(db)
    requires forall l :: l in links ==> l.cityId in CityIds(db)
    ensures LinkedCities(db, links).Ok?
  {
    forall k | 0 <= k < |links| ensures Get(db.cities, CityPk, links[k].cityId).Found? {
      assert links[k] in links;
      UniqueSelect(db.cities, CityPk, links[k].cityId);
    }
  }

  /**
   * In a consistent store the destinations of a trip are the names of the
   * cities its links point at, in link order, one name per link; and a trip
   * without links has the empty string.
   */
  lemma DestinationsAreLinkedNames(db: Store, tripId: string)
    requires Integrity(db)
    requires forall c :: c in db.cities ==> ',' !in c.cityName
    ensures Destinations(db, tripId).Ok?
    ensures LinksOf(db, tripId) == [] ==> Destinations(db, tripId).value == ""
    ensures var links := LinksOf(db, tripId);
            var pieces := Text.Split(Destinations(db, tripId).value, ',');
            links != [] ==>
              |pieces| == |links| &&
              forall k :: 0 <= k < |links| ==>
                exists c :: c in db.cities && c.id == links[k].cityId && c.cityName == pieces[k]
  {
    var links := LinksOf(db, tripId);
    forall l | l in links ensures l.cityId in CityIds(db) {
      assert l.cityId in KeySet(db.links, LinkCity);
    }
    LinkedCitiesResolve(db, links);
    var cs := LinkedCities(db, links).value;
    if links != [] {
      Text.SplitJoin(Names(cs), ',');
      forall k | 0 <= k < |links|
        ensures exists c :: c in db.cities && c.id == links[k].cityId && c.cityName == Names(cs)[k]
      {
        assert cs[k] in db.cities;
      }
    }
  }

  /** In a store whose references resolve, building the listing never fails. */
  lemma TripsWithDestinationsResolve(db: Store, owner: Option<string>)
    requires Integrity(db)
    ensures TripsWithDestinations(db, owner).Ok?
  {
    var trips := TripsForUser(db, owner);
    forall i | 0 <= i < |trips| ensures Destinations(db, trips[i].id).Ok? {
      var links := LinksOf(db, trips[i].id);
      forall l | l in links ensures l.cityId in CityIds(db) {
        assert l.cityId in KeySet(db.links, LinkCity);
      }
      LinkedCitiesResolve(db, links);
    }
  }
}

=== FILE: requests.dfy ===
/**
 * The application as one state machine: a request is dispatched to the
 * handler its URL pattern names (`Handle`), or to the same handlers with the
 * trip edit going through the corrected update (`HandleChecked`). The lemmas
 * state what holds across all handlers: the schema's guarantees always
 * survive, all rules survive only with the corrected edit, a consistent store
 * never makes a `get` ambiguous, the as-written edit does make the next trip
 * registration ambiguous, and reopening and resubmitting an edit keeps a
 * trip's cities.
 */
module Requests {
  import opened Wrappers
  import opened Rows
  import opened Models
  import opened Queries
  import opened TripUpdate
  import opened Views
  import Text

  datatype Request =
    | LoginRequest(username: string, password: string)
    | RegisterUserRequest(userId: string, name: string, surname: string, dateOfBirth: int,
                          username: string, password: string, email: string)
    | NewTripRequest(tripId: string, associates: string, tripDate: int, totalCost: int)
    | NewDestinationRequest(cityId: string, cityName: string, country: string, population: int)
    | ManageTripsRequest
    | UserMenuRequest
    | EditRequest(editedTrip: string)
    | ModifyRequest(newAssociates: string, newDate: int, newCost: int, posted: set<string>,
                    linkIds: seq<string>)
    | DeleteRequest(deletedTrip: string)

  /** The id supply of an edit covers every city the snapshot could select. */
  predicate Supplied(s: Session, req: Request)
  {
    req.ModifyRequest? && s.citiesData.Some? ==> |req.linkIds| >= |s.citiesData.value|
  }

  /** The URL patterns: each request reaches the handler its route names, the edit reaching `modify_trip` as written. */
  function Handle(db: Store, s: Session, req: Request): (o: Outcome)
    requires Supplied(s, req)
    ensures req.LoginRequest? || req.ManageTripsRequest? || req.UserMenuRequest? || req.EditRequest? ==>
              o.db == db
  {
    match req
    case LoginRequest(username, password) => Login(db, s, username, password)
    case RegisterUserRequest(id, name, surname, dob, username, password, email) =>
      RegisterUser(db, s, id, name, surname, dob, username, password, email)
    case NewTripRequest(id, associates, date, cost) => RegisterNewTrip(db, s, id, associates, date, cost)
    case NewDestinationRequest(id, name, country, population) =>
      RegisterNewDestination(db, s, id, name, country, population)
    case ManageTripsRequest => ManageTrips(db, s)
    case UserMenuRequest => UserMenuView(db, s)
    case EditRequest(tripId) => GetEditData(db, s, tripId)
    case ModifyRequest(associates, date, cost, posted, ids) =>
      ModifyTrip(db, s, associates, date, cost, posted, ids)
    case DeleteRequest(tripId) => DeleteData(db, s, tripId)
  }

  /** The same routes with the trip edit going through the corrected update. */
  function HandleChecked(db: Store, s: Session, req: Request): (o: Outcome)
    requires Supplied(s, req)
    ensures !req.ModifyRequest? ==> o == Handle(db, s, req)
    ensures req.ModifyRequest? && o.response.TripList? ==> o.db == db
  {
    match req
    case ModifyRequest(associates, date, cost, posted, ids) =>
      ModifyTripChecked(db, s, associates, date, cost, posted, ids)
    case _ => Handle(db, s, req)
  }

  /**
   * Every request as routed keeps the schema's guarantees and the username and
   * place rules; only the trip edit can break the one-trip-per-day rule.
   */
  lemma HandleKeepsIntegrity(db: Store, s: Session, req: Request)
    requires Supplied(s, req)
    requires Integrity(db) && UsernamesUnique(db) && PlacesUnique(db)
    ensures var o := Handle(db, s, req);
            Integrity(o.db) && UsernamesUnique(o.db) && PlacesUnique(o.db)
  {
    var o := Handle(db, s, req);
    match req
    case RegisterUserRequest(id, name, surname, dob, username, password, email) =>
      if o.db != db {
        CreateUserKeepsIntegrity(db, User(id, name, surname, dob, username, password, email));
      }
    case NewTripRequest(id, associates, date, cost) =>
      if o.db != db {
        CreateTripKeepsIntegrity(db, Trip(id, s.userId.value, associates, date, cost));
      }
    case NewDestinationRequest(id, name, country, population) =>
      if o.db != db {
        CreateCityKeepsIntegrity(db, City(id, name, country, population));
      }
    case ModifyRequest(associates, date, cost, posted, ids) =>
      AsWrittenEditKeepsOtherRules(db, s, associates, date, cost, posted, ids);
    case DeleteRequest(tripId) =>
      DeleteTripKeepsIntegrity(db, tripId);
    case _ =>
  }

  /**
   * The guarantees `HandleKeepsIntegrity` keeps are an invariant of the
   * application as routed: they survive a second request on whatever store and
   * session the first one left, one trip per day or not.
   */
  lemma HandleTwiceKeepsIntegrity(db: Store, s: Session, first: Request, second: Request)
    requires Integrity(db) && UsernamesUnique(db) && PlacesUnique(db)
    requires Supplied(s, first) && Supplied(Handle(db, s, first).session, second)
    ensures var o := Handle(db, s, first);
            var o' := Handle(o.db, o.session, second);
            Integrity(o'.db) && UsernamesUnique(o'.db) && PlacesUnique(o'.db)
  {
    var o := Handle(db, s, first);
    HandleKeepsIntegrity(db, s, first);
    HandleKeepsIntegrity(o.db, o.session, second);
  }

  /** With the corrected edit every request keeps the store consistent: schema guarantees and all three rules. */
  lemma HandleKeepsConsistency(db: Store, s: Session, req: Request)
    requires Supplied(s, req)
    requires Consistent(db)
    ensures Consistent(HandleChecked(db, s, req).db)
  {
    var o := HandleChecked(db, s, req);
    match req
    case RegisterUserRequest(id, name, surname, dob, username, password, email) =>
      if o.db != db {
        CreateUserKeepsIntegrity(db, User(id, name, surname, dob, username, password, email));
      }
    case NewTripRequest(id, associates, date, cost) =>
      if o.db != db {
        CreateTripKeepsIntegrity(db, Trip(id, s.userId.value, associates, date, cost));
      }
    case NewDestinationRequest(id, name, country, population) =>
      if o.db != db {
        CreateCityKeepsIntegrity(db, City(id, name, country, population));
      }
    case ModifyRequest(associates, date, cost, posted, ids) =>
      if EditContext(s).Ok? {
        var (choices, tripId, userId) := EditContext(s).value;
        var selected := SelectedCities(choices, posted);
        UpdateTripCheckedKeepsConsistency(db, tripId, associates, date, cost, selected, userId, ids);
      }
    case DeleteRequest(tripId) =>
      DeleteTripKeepsIntegrity(db, tripId);
      UniqueExclude(db.trips, TripDay, TripPk, {tripId});
    case _ =>
  }

  /** The trip edit as written keeps the schema's guarantees and the username and place rules. */
  lemma AsWrittenEditKeepsOtherRules(db: Store, s: Session, associates: string, tripDate: int, totalCost: int,
                                     posted: set<string>, newIds: seq<string>)
    requires s.citiesData.Some? ==> |newIds| >= |s.citiesData.value|
    requires Integrity(db) && UsernamesUnique(db) && PlacesUnique(db)
    ensures var o := ModifyTrip(db, s, associates, tripDate, totalCost, posted, newIds);
            Integrity(o.db) && UsernamesUnique(o.db) && PlacesUnique(o.db)
  {
    if EditContext(s).Ok? {
      var (choices, tripId, userId) := EditContext(s).value;
      var selected := SelectedCities(choices, posted);
      UpdateTripKeepsIntegrity(db, tripId, associates, tripDate, totalCost, selected, userId, newIds);
      UpdateTripKeepsUserAndCityRules(db, tripId, associates, tripDate, totalCost, selected, userId, newIds);
    }
  }

  /**
   * In a consistent store no `get` a handler issues matches several rows, with
   * either edit: the uniqueness rules are exactly what keeps
   * `MultipleObjectsReturned` away.
   */
  lemma ConsistentStoreIsNeverAmbiguous(db: Store, s: Session, req: Request)
    requires Supplied(s, req)
    requires Consistent(db)
    ensures Handle(db, s, req).response != ServerError(MultipleObjectsReturned)
    ensures HandleChecked(db, s, req).response != ServerError(MultipleObjectsReturned)
  {
    match req
    case LoginRequest(username, password) =>
      UniqueFiner(db.users, Username, Credentials);
      UniqueSelect(db.users, Credentials, (username, password));
    case RegisterUserRequest(id, name, surname, dob, username, password, email) =>
      UniqueSelect(db.users, Username, username);
      var u := User(id, name, surname, dob, username, password, email);
      if CreateUser(db, u).Ok? {
        CreateUserKeepsIntegrity(db, u);
      }
    case NewTripRequest(id, associates, date, cost) =>
      if s.userId.Some? {
        UniqueSelect(db.trips, TripDay, (s.userId.value, date));
        var t := Trip(id, s.userId.value, associates, date, cost);
        if CreateTrip(db, t).Ok? {
          CreateTripKeepsIntegrity(db, t);
        }
      }
    case NewDestinationRequest(id, name, country, population) =>
      UniqueSelect(db.cities, Place, (name, country));
      var c := City(id, name, country, population);
      if CreateCity(db, c).Ok? {
        CreateCityKeepsIntegrity(db, c);
      }
    case EditRequest(tripId) =>
      UniqueSelect(db.trips, TripPk, tripId);
    case ModifyRequest(associates, date, cost, posted, ids) =>
      if EditContext(s).Ok? {
        var (choices, tripId, userId) := EditContext(s).value;
        var selected := SelectedCities(choices, posted);
        UpdateTripKeepsIntegrity(db, tripId, associates, date, cost, selected, userId, ids);
        UpdateTripCheckedKeepsConsistency(db, tripId, associates, date, cost, selected, userId, ids);
      }
    case _ =>
  }

  /**
   * The one-trip-per-day rule the as-written edit breaks is the one
   * `register_new_trip` relies on: after trip `b` is moved onto the owner and
   * day of trip `a`, registering another trip of that owner on that day finds
   * two trips and ends in `MultipleObjectsReturned`.
   */
  lemma AsWrittenEditMakesNewTripAmbiguous(db: Store, a: Trip, b: Trip, newId: string, associates: string,
                                           totalCost: int)
    requires Consistent(db)
    requires a in db.trips && b in db.trips && a.id != b.id
    ensures var s := Session(Some(a.userId), Some(b.id), Some([]));
            var edit := Handle(db, s, ModifyRequest(b.associates, a.tripDate, b.totalCost, {}, []));
            Handle(edit.db, edit.session, NewTripRequest(newId, associates, a.tripDate, totalCost)).response
              == ServerError(MultipleObjectsReturned)
  {
    AsWrittenEditDoublesDay(db, a, b);
    var s := Session(Some(a.userId), Some(b.id), Some([]));
    var edit := Handle(db, s, ModifyRequest(b.associates, a.tripDate, b.totalCost, {}, []));
    AmbiguousDayFailsNewTrip(edit.db, s, newId, associates, a.tripDate, totalCost);
  }

  /** The as-written edit of `AsWrittenEditMakesNewTripAmbiguous` leaves two trips on the owner's day. */
  lemma AsWrittenEditDoublesDay(db: Store, a: Trip, b: Trip)
    requires Consistent(db)
    requires a in db.trips && b in db.trips && a.id != b.id
    ensures var s := Session(Some(a.userId), Some(b.id), Some([]));
            var edit := Handle(db, s, ModifyRequest(b.associates, a.tripDate, b.totalCost, {}, []));
            edit.session == s && Get(edit.db.trips, TripDay, (a.userId, a.tripDate)).Multiple?
  {
    var s := Session(Some(a.userId), Some(b.id), Some([]));
    HandleRoutesEdit(db, s, b.associates, a.tripDate, b.totalCost, {}, []);
    assert SelectedCities([], {}) == [];
    UpdateTripCanBreakOneTripPerDay(db, a, b);
    assert EditContext(s).value == ([], b.id, a.userId);
  }

  /** The edit request reaches `modify_trip` as written. */
  lemma HandleRoutesEdit(db: Store, s: Session, associates: string, tripDate: int, totalCost: int,
                         posted: set<string>, newIds: seq<string>)
    requires Supplied(s, ModifyRequest(associates, tripDate, totalCost, posted, newIds))
    ensures Handle(db, s, ModifyRequest(associates, tripDate, totalCost, posted, newIds))
              == ModifyTrip(db, s, associates, tripDate, totalCost, posted, newIds)
  {
  }

  /** When the signed-in user already has two trips on a day, registering another on that day is a server error. */
  lemma AmbiguousDayFailsNewTrip(db: Store, s: Session, newId: string, associates: string, tripDate: int,
                                 totalCost: int)
    requires s.userId.Some? && Get(db.trips, TripDay, (s.userId.value, tripDate)).Multiple?
    ensures Handle(db, s, NewTripRequest(newId, associates, tripDate, totalCost)).response
              == ServerError(MultipleObjectsReturned)
  {
    assert Handle(db, s, NewTripRequest(newId, associates, tripDate, totalCost))
        == RegisterNewTrip(db, s, newId, associates, tripDate, totalCost);
  }

  /**
   * In a store with the schema's guarantees and no comma in any city name, an
   * `update_trip` of an existing trip, to an existing owner, with existing
   * cities and unused link ids succeeds and shows up in
   * `get_all_trips_for_user_and_its_cities`: the owner's listing is built and
   * holds the edited trip, whose destinations are empty without a selection
   * and otherwise split into one name per selected city, in selection order,
   * each the name of the city with that id. A city name holding a comma would
   * split into several pieces, so the condition is needed.
   */
  lemma UpdateTripThenListing(db: Store, tripId: string, associates: string, tripDate: int, totalCost: int,
                              selected: seq<string>, userId: string, newIds: seq<string>)
    requires Integrity(db)
    requires forall c :: c in db.cities ==> ',' !in c.cityName
    requires tripId in TripIds(db) && userId in UserIds(db) && |newIds| >= |selected|
    requires CitiesExist(db.cities, selected)
    requires Fresh(KeySet(Exclude(db.links, LinkTrip, {tripId}), LinkPk), newIds[..|selected|])
    ensures var u := UpdateTrip(db, tripId, associates, tripDate, totalCost, selected, userId, newIds);
            var listing := TripsWithDestinations(u.db, Some(userId));
            && u.success
            && listing.Ok?
            && exists i :: 0 <= i < |listing.value| && listing.value[i].id == tripId &&
                 ListsSelection(db, listing.value[i].destinations, selected)
  {
    var u := UpdateTrip(db, tripId, associates, tripDate, totalCost, selected, userId, newIds);
    UniqueSelect(db.trips, TripPk, tripId);
    assert Get(db.trips, TripPk, tripId).Found?;
    UpdateTripKeepsIntegrity(db, tripId, associates, tripDate, totalCost, selected, userId, newIds);
    UpdateTripLinks(db, tripId, associates, tripDate, totalCost, selected, userId, newIds);
    var edited := Trip(tripId, userId, associates, tripDate, totalCost);
    var j :| 0 <= j < |db.trips| && db.trips[j] == Get(db.trips, TripPk, tripId).row;
    assert u.db.trips[j] == edited;
    assert |LinksOf(u.db, tripId)| == |selected| && selected[..|selected|] == selected;
    ListedWithSelection(u.db, db, edited, selected, newIds);
  }

  /**
   * With the schema's guarantees and comma-free city names, a stored trip whose
   * links are exactly the new links for `selected` is listed with the selection
   * as destinations.
   */
  lemma ListedWithSelection(after: Store, db: Store, edited: Trip, selected: seq<string>, newIds: seq<string>)
    requires Integrity(after) && after.cities == db.cities && edited in after.trips
    requires forall c :: c in db.cities ==> ',' !in c.cityName
    requires |newIds| >= |selected|
    requires LinksOf(after, edited.id) == NewLinks(edited.id, selected, newIds[..|selected|])
    ensures var listing := TripsWithDestinations(after, Some(edited.userId));
            && listing.Ok?
            && exists i :: 0 <= i < |listing.value| && listing.value[i].id == edited.id &&
                 ListsSelection(db, listing.value[i].destinations, selected)
  {
    TripsWithDestinationsResolve(after, Some(edited.userId));
    var listing := TripsWithDestinations(after, Some(edited.userId));
    var trips := TripsForUser(after, Some(edited.userId));
    assert edited in trips;
    var i :| 0 <= i < |trips| && trips[i] == edited;
    assert listing.value[i].id == edited.id;
    DestinationsListSelection(after, db, edited.id, selected, newIds);
  }

  /** `destinations` names the cities of `selected` in order, as the listing joins them. */
  predicate ListsSelection(db: Store, destinations: string, selected: seq<string>)
  {
    var pieces := Text.Split(destinations, ',');
    && (selected == [] ==> destinations == "")
    && (selected != [] ==>
          |pieces| == |selected| &&
          forall k :: 0 <= k < |selected| ==>
            exists c :: c in db.cities && c.id == selected[k] && c.cityName == pieces[k])
  }

  /**
   * With the schema's guarantees and comma-free city names, a trip whose links
   * are exactly the new links for `selected` has the selection as its
   * destinations.
   */
  lemma DestinationsListSelection(after: Store, db: Store, tripId: string, selected: seq<string>, newIds: seq<string>)
    requires Integrity(after) && after.cities == db.cities
    requires forall c :: c in db.cities ==> ',' !in c.cityName
    requires |newIds| >= |selected|
    requires LinksOf(after, tripId) == NewLinks(tripId, selected, newIds[..|selected|])
    ensures Destinations(after, tripId).Ok?
    ensures ListsSelection(db, Destinations(after, tripId).value, selected)
  {
    DestinationsAreLinkedNames(after, tripId);
    var links := LinksOf(after, tripId);
    assert forall k :: 0 <= k < |selected| ==> links[k].cityId == selected[k];
  }

  /** The city ids whose flag is set in a snapshot: what the edit form posts back unchanged. */
  function Flagged(choices: seq<CityChoice>): set<string>
  {
    set c | c in choices && c.selected :: c.cityId
  }

  /** Selecting the flagged entries of a trip's snapshot yields exactly the trip's linked cities. */
  lemma FlaggedSnapshotSelectsLinkedCities(choices: seq<CityChoice>, db: Store, tripId: string)
    requires Integrity(db) && IsSnapshotOf(choices, db, tripId)
    ensures (set x | x in SelectedCities(choices, Flagged(choices))) == KeySet(LinksOf(db, tripId), LinkCity)
  {
    var chosen := SelectedCities(choices, Flagged(choices));
    var linked := KeySet(LinksOf(db, tripId), LinkCity);
    forall x | x in chosen ensures x in linked {
      var c :| c in choices && c.selected && c.cityId == x;
      var i :| 0 <= i < |choices| && choices[i] == c;
    }
    forall x | x in linked ensures x in chosen {
      var l :| l in LinksOf(db, tripId) && l.cityId == x;
      assert x in KeySet(db.links, LinkCity);
      var city :| city in db.cities && city.id == x;
      var i :| 0 <= i < |db.cities| && db.cities[i] == city;
      assert choices[i] in choices;
      assert x in KeySet(choices, ChoiceId);
    }
  }

  /**
   * Opening the edit page and posting back exactly the flags it showed
   * selects exactly the cities the trip is linked to.
   */
  lemma ResubmittedSnapshotSelectsLinkedCities(db: Store, s: Session, tripId: string)
    requires Integrity(db) && tripId in TripIds(db)
    ensures var o := GetEditData(db, s, tripId);
            o.response.ManageTrip? &&
            (set x | x in SelectedCities(o.response.choices, Flagged(o.response.choices)))
              == KeySet(LinksOf(db, tripId), LinkCity)
  {
    var o := GetEditData(db, s, tripId);
    FlaggedSnapshotSelectsLinkedCities(o.response.choices, db, tripId);
  }

  // ------------------------------------------------------------- scenario

  /** The fixture of the repository's model tests: two users, one trip, two linked cities. */
  function Fixture(): Store
  {
    Store(
      [User("1", "test1", "test1", 20200101, "test1", "test1", "test1"),
       User("2", "test2", "test2", 20200102, "test2", "test2", "test2")],
      [Trip("trip1", "1", "test1,test2", 20220101, 300)],
      [City("city1", "city1", "country1", 100), City("city2", "city2", "country2", 200)],
      [CityForTrip("connection1", "trip1", "city1"), CityForTrip("connection2", "trip1", "city2")])
  }

  /** On the fixture, login as test1 finds user 1 and the city lookup finds city1. */
  lemma FixtureLookups()
    ensures Get(Fixture().users, Credentials, ("test1", "test1")) == Found(Fixture().users[0])
    ensures Get(Fixture().cities, Place, ("city1", "country1")) == Found(Fixture().cities[0])
  {
    var db := Fixture();
    assert Select(db.users, Credentials, ("test1", "test1")) == [db.users[0]];
    assert Select(db.cities, Place, ("city1", "country1")) == [db.cities[0]];
  }

  /** On the fixture, user 1 owns exactly trip1 and user 2 owns nothing. */
  lemma FixtureTrips()
    ensures TripsForUser(Fixture(), Some("1")) == [Fixture().trips[0]]
    ensures TripsForUser(Fixture(), Some("2")) == []
  {
    var db := Fixture();
    assert Select(db.trips, Owner, Some("1")) == db.trips;
    assert Select(db.trips, Owner, Some("2")) == [];
  }

  /** On the fixture, trip1's destinations are its two cities in link order. */
  lemma FixtureDestinations()
    ensures Destinations(Fixture(), "trip1") == Ok("city1,city2")
  {
    var db := Fixture();
    assert LinksOf(db, "trip1") == db.links;
    assert Get(db.cities, CityPk, "city1") == Found(db.cities[0]) by {
      assert Select(db.cities, CityPk, "city1") == [db.cities[0]];
    }
    assert Get(db.cities, CityPk, "city2") == Found(db.cities[1]) by {
      assert Select(db.cities, CityPk, "city2") == [db.cities[1]];
    }
    assert db.links[1..][1..] == [];
    assert LinkedCities(db, db.links[1..]) == Ok([db.cities[1]]);
    assert [db.cities[0]] + [db.cities[1]] == db.cities;
    assert LinkedCities(db, db.links) == Ok(db.cities);
    var names := Names(db.cities);
    assert names == ["city1", "city2"];
    assert names[1..] == ["city2"];
    assert Text.Join(names[1..], ',') == "city2";
    assert Text.Join(names, ',') == "city1" + [','] + "city2" == "city1,city2";
  }
}

=== FILE: rows.dfy ===
/**
 * Tables as sequences of rows in insertion order, and the handful of queries
 * the application issues against them: `filter(key=k)`, `get(key=k)`, an
 * UPDATE of the rows carrying a primary key, and DELETE of the rows whose key
 * lies in a set. Every table operation is parameterised by a key function, so
 * the same definitions serve primary keys, foreign keys and the composite
 * "natural keys" the application checks before inserting.
 */
module Rows {

  /** What a `get` query finds: no row, exactly one row, or more than one. */
  datatype Lookup<T> = NotFound | Found(row: T) | Multiple

  /** The keys carried by the rows of a table. */
  function KeySet<T(==), K>(rows: seq<T>, key: T -> K): set<K>
  {
    set x | x in rows :: key(x)
  }

  /** The rows whose key is `k`, in table order (a `filter(key=k)` query). */
  function Select<T(==,!new), K(==)>(rows: seq<T>, key: T -> K, k: K): (r: seq<T>)
    ensures |r| <= |rows|
    ensures forall x :: x in r <==> x in rows && key(x) == k
    decreases |rows|
  {
    if |rows| == 0 then []
    else if key(rows[0]) == k then [rows[0]] + Select(rows[1..], key, k)
    else Select(rows[1..], key, k)
  }

  /** The rows whose key is outside `ks`, in table order (what remains after a DELETE). */
  function Exclude<T(==,!new), K(==)>(rows: seq<T>, key: T -> K, ks: set<K>): (r: seq<T>)
    ensures |r| <= |rows|
    ensures forall x :: x in r <==> x in rows && key(x) !in ks
    decreases |rows|
  {
    if |rows| == 0 then []
    else if key(rows[0]) in ks then Exclude(rows[1..], key, ks)
    else [rows[0]] + Exclude(rows[1..], key, ks)
  }

  /**
   * A `get(key=k)` query: the unique matching row, or the reason there is none
   * (no match, or several matches).
   */
  function Get<T(==,!new), K(==)>(rows: seq<T>, key: T -> K, k: K): (r: Lookup<T>)
    ensures r.NotFound? <==> k !in KeySet(rows, key)
    ensures r.Found? ==> r.row in rows && key(r.row) == k && Select(rows, key, k) == [r.row]
    ensures r.Multiple? <==> |Select(rows, key, k)| > 1
  {
    var matches := Select(rows, key, k);
    if |matches| == 0 then
      assert k in KeySet(rows, key) ==> exists x :: x in rows && key(x) == k;
      NotFound
    else
      assert matches[0] in matches;
      if |matches| == 1 then Found(matches[0]) else Multiple
  }

  /** `after` is `rows` with every row keyed `k` replaced by `x` in place, and every other row kept where it was. */
  predicate Replaced<T(==), K(==)>(rows: seq<T>, after: seq<T>, key: T -> K, k: K, x: T)
  {
    && |after| == |rows|
    && forall i :: 0 <= i < |rows| ==> after[i] == (if key(rows[i]) == k then x else rows[i])
  }

  /** An UPDATE of every row whose key is `k`: each such row becomes `x`, the others stay put. */
  function Overwrite<T(==,!new), K(==)>(rows: seq<T>, key: T -> K, k: K, x: T): (r: seq<T>)
    ensures Replaced(rows, r, key, k, x)
    decreases |rows|
  {
    if |rows| == 0 then []
    else [if key(rows[0]) == k then x else rows[0]] + Overwrite(rows[1..], key, k, x)
  }

  /** No two rows of the table share a key. */
  predicate UniqueKeys<T(==), K(==)>(rows: seq<T>, key: T -> K)
    decreases |rows|
  {
    |rows| == 0 || (key(rows[0]) !in KeySet(rows[1..], key) && UniqueKeys(rows[1..], key))
  }

  // ---------------------------------------------------------------- lemmas

  /** Filtering respects table order: it distributes over concatenation. */
  lemma {:induction false} SelectAppend<T(!new), K>(a: seq<T>, b: seq<T>, key: T -> K, k: K)
    ensures Select(a + b, key, k) == Select(a, key, k) + Select(b, key, k)
    decreases |a|
  {
    if |a| == 0 {
      assert a + b == b;
    } else {
      assert (a + b)[1..] == a[1..] + b;
      SelectAppend(a[1..], b, key, k);
    }
  }

  /** Deleting also respects table order. */
  lemma {:induction false} ExcludeAppend<T(!new), K>(a: seq<T>, b: seq<T>, key: T -> K, ks: set<K>)
    ensures Exclude(a + b, key, ks) == Exclude(a, key, ks) + Exclude(b, key, ks)
    decreases |a|
  {
    if |a| == 0 {
      assert a + b == b;
    } else {
      assert (a + b)[1..] == a[1..] + b;
      ExcludeAppend(a[1..], b, key, ks);
    }
  }

  /** Deleting nothing leaves the table as it was. */
  lemma {:induction false} ExcludeNothing<T(!new), K>(rows: seq<T>, key: T -> K, ks: set<K>)
    requires forall x :: x in rows ==> key(x) !in ks
    ensures Exclude(rows, key, ks) == rows
    decreases |rows|
  {
    if |rows| > 0 {
      ExcludeNothing(rows[1..], key, ks);
    }
  }

  /** A filter every row passes returns the whole table. */
  lemma {:induction false} SelectEvery<T(!new), K>(rows: seq<T>, key: T -> K, k: K)
    requires forall x :: x in rows ==> key(x) == k
    ensures Select(rows, key, k) == rows
    decreases |rows|
  {
    if |rows| > 0 {
      assert rows[0] in rows;
      SelectEvery(rows[1..], key, k);
    }
  }

  /** Deleting by a key every row carries empties the table. */
  lemma {:induction false} ExcludeEvery<T(!new), K>(rows: seq<T>, key: T -> K, ks: set<K>)
    requires forall x :: x in rows ==> key(x) in ks
    ensures Exclude(rows, key, ks) == []
    decreases |rows|
  {
    if |rows| > 0 {
      assert rows[0] in rows;
      ExcludeEvery(rows[1..], key, ks);
    }
  }

  /** An UPDATE that matches no row leaves the table as it was. */
  lemma {:induction false} OverwriteNothing<T(!new), K>(rows: seq<T>, key: T -> K, k: K, x: T)
    requires k !in KeySet(rows, key)
    ensures Overwrite(rows, key, k, x) == rows
  {
    assert forall i :: 0 <= i < |rows| ==> rows[i] in rows;
  }

  lemma KeySetAppend<T, K>(rows: seq<T>, x: T, key: T -> K)
    ensures KeySet(rows + [x], key) == KeySet(rows, key) + {key(x)}
  {
    assert forall y :: y in rows + [x] <==> y in rows || y == x;
  }

  lemma KeySetCons<T, K>(rows: seq<T>, key: T -> K)
    requires |rows| > 0
    ensures KeySet(rows, key) == {key(rows[0])} + KeySet(rows[1..], key)
  {
    assert rows == [rows[0]] + rows[1..];
    assert forall y :: y in rows <==> y == rows[0] || y in rows[1..];
  }

  lemma KeySetExclude<T(!new), K>(rows: seq<T>, key: T -> K, ks: set<K>)
    ensures KeySet(Exclude(rows, key, ks), key) == KeySet(rows, key) - ks
  {
    var r := Exclude(rows, key, ks);
    forall k | k in KeySet(rows, key) - ks
      ensures k in KeySet(r, key)
    {
      var x :| x in rows && key(x) == k;
      assert x in r;
    }
  }

  /** An UPDATE that keeps the key of the rows it rewrites keeps the table's key set. */
  lemma KeySetOverwrite<T(!new), K>(rows: seq<T>, key: T -> K, k: K, x: T)
    requires key(x) == k
    ensures KeySet(Overwrite(rows, key, k, x), key) == KeySet(rows, key)
  {
    var r := Overwrite(rows, key, k, x);
    forall j | j in KeySet(rows, key)
      ensures j in KeySet(r, key)
    {
      var y :| y in rows && key(y) == j;
      var i :| 0 <= i < |rows| && rows[i] == y;
      assert key(r[i]) == j;
    }
    forall j | j in KeySet(r, key)
      ensures j in KeySet(rows, key)
    {
      var y :| y in r && key(y) == j;
      var i :| 0 <= i < |r| && r[i] == y;
      assert key(rows[i]) == j;
    }
  }

  /** After an UPDATE, every second key comes from an old row or from the new row. */
  lemma KeySetOverwriteOther<T(!new), K, J>(rows: seq<T>, pk: T -> K, k: K, x: T, key: T -> J)
    ensures KeySet(Overwrite(rows, pk, k, x), key) <= KeySet(rows, key) + {key(x)}
  {
    var r := Overwrite(rows, pk, k, x);
    forall j | j in KeySet(r, key) ensures j in KeySet(rows, key) + {key(x)} {
      var y :| y in r && key(y) == j;
      var i :| 0 <= i < |r| && r[i] == y;
      assert rows[i] in rows;
    }
  }

  /** Rows are unique by key exactly when no key occurs at two positions. */
  lemma {:induction false} UniqueKeysByIndex<T, K>(rows: seq<T>, key: T -> K)
    ensures UniqueKeys(rows, key) <==>
            forall i, j :: 0 <= i < j < |rows| ==> key(rows[i]) != key(rows[j])
    decreases |rows|
  {
    if |rows| > 0 {
      var tail := rows[1..];
      UniqueKeysByIndex(tail, key);
      if UniqueKeys(rows, key) {
        forall i, j | 0 <= i < j < |rows|
          ensures key(rows[i]) != key(rows[j])
        {
          if i == 0 {
            assert rows[j] == tail[j - 1] && tail[j - 1] in tail;
          } else {
            assert rows[i] == tail[i - 1] && rows[j] == tail[j - 1];
          }
        }
      } else if key(rows[0]) in KeySet(tail, key) {
        var y :| y in tail && key(y) == key(rows[0]);
        var j :| 0 <= j < |tail| && tail[j] == y;
        assert key(rows[0]) == key(rows[j + 1]);
      } else {
        var i, j :| 0 <= i < j < |tail| && key(tail[i]) == key(tail[j]);
        assert rows[i + 1] == tail[i] && rows[j + 1] == tail[j];
      }
    }
  }

  /** Appending a row with a new key keeps the keys unique. */
  lemma {:induction false} UniqueAppend<T, K>(rows: seq<T>, x: T, key: T -> K)
    requires UniqueKeys(rows, key)
    requires key(x) !in KeySet(rows, key)
    ensures UniqueKeys(rows + [x], key)
    decreases |rows|
  {
    if |rows| > 0 {
      assert (rows + [x])[1..] == rows[1..] + [x];
      UniqueAppend(rows[1..], x, key);
      KeySetAppend(rows[1..], x, key);
    } else {
      assert (rows + [x])[1..] == [];
    }
  }

  /** Appending keeps keys unique when the new key is absent; otherwise there is nothing to keep. */
  lemma UniqueAppendWhen<T, K>(rows: seq<T>, x: T, key: T -> K)
    requires key(x) !in KeySet(rows, key)
    ensures UniqueKeys(rows, key) ==> UniqueKeys(rows + [x], key)
  {
    if UniqueKeys(rows, key) {
      UniqueAppend(rows, x, key);
    }
  }

  /** Deleting rows (by any criterion) keeps the keys unique. */
  lemma {:induction false} UniqueExclude<T(!new), K, J>(rows: seq<T>, key: T -> K, crit: T -> J, js: set<J>)
    requires UniqueKeys(rows, key)
    ensures UniqueKeys(Exclude(rows, crit, js), key)
    decreases |rows|
  {
    if |rows| > 0 {
      UniqueExclude(rows[1..], key, crit, js);
      var r := Exclude(rows[1..], crit, js);
      assert KeySet(r, key) <= KeySet(rows[1..], key);
    }
  }

  /** A key no row carries selects no row. */
  lemma {:induction false} SelectAbsent<T(!new), K>(rows: seq<T>, key: T -> K, k: K)
    requires k !in KeySet(rows, key)
    ensures Select(rows, key, k) == []
    decreases |rows|
  {
    if |rows| > 0 {
      assert rows[0] in rows;
      assert KeySet(rows[1..], key) <= KeySet(rows, key);
      SelectAbsent(rows[1..], key, k);
    }
  }

  /** With unique keys a `get` on that key never finds several rows. */
  lemma {:induction false} UniqueSelect<T(!new), K>(rows: seq<T>, key: T -> K, k: K)
    requires UniqueKeys(rows, key)
    ensures |Select(rows, key, k)| <= 1
    decreases |rows|
  {
    if |rows| > 0 {
      if key(rows[0]) == k {
        SelectAbsent(rows[1..], key, k);
      } else {
        UniqueSelect(rows[1..], key, k);
      }
    }
  }

  /** Keys that are unique stay unique under any finer key. */
  lemma {:induction false} UniqueFiner<T, K, J>(rows: seq<T>, coarse: T -> K, fine: T -> J)
    requires UniqueKeys(rows, coarse)
    requires forall x, y :: fine(x) == fine(y) ==> coarse(x) == coarse(y)
    ensures UniqueKeys(rows, fine)
    decreases |rows|
  {
    if |rows| > 0 {
      UniqueFiner(rows[1..], coarse, fine);
    }
  }

  /** Two positions carrying the same key break uniqueness. */
  lemma DuplicateKey<T, K>(rows: seq<T>, key: T -> K, i: nat, j: nat)
    requires i < |rows| && j < |rows| && i != j
    requires key(rows[i]) == key(rows[j])
    ensures !UniqueKeys(rows, key)
  {
    UniqueKeysByIndex(rows, key);
    if i > j {
      assert !(forall x, y :: 0 <= x < y < |rows| ==> key(rows[x]) != key(rows[y]));
    }
  }

  /** Two distinct rows sharing a key make the lookup by that key ambiguous. */
  lemma TwoRowsSameKey<T(!new), K>(rows: seq<T>, key: T -> K, i: nat, j: nat)
    requires i < |rows| && j < |rows| && rows[i] != rows[j]
    requires key(rows[i]) == key(rows[j])
    ensures |Select(rows, key, key(rows[i]))| > 1
  {
    var matches := Select(rows, key, key(rows[i]));
    assert rows[i] in matches && rows[j] in matches;
  }

  /**
   * An UPDATE of the row with primary key `k` keeps a second key unique as long
   * as no OTHER row already carries the new row's second key.
   */
  lemma {:induction false} UniqueOverwrite<T(!new), K, J>(
    rows: seq<T>, pk: T -> K, k: K, x: T, key: T -> J)
    requires UniqueKeys(rows, pk) && UniqueKeys(rows, key)
    requires pk(x) == k
    requires key(x) !in KeySet(Exclude(rows, pk, {k}), key)
    ensures UniqueKeys(Overwrite(rows, pk, k, x), key)
    decreases |rows|
  {
    if |rows| > 0 {
      var h, tail := rows[0], rows[1..];
      assert KeySet(Exclude(tail, pk, {k}), key) <= KeySet(Exclude(rows, pk, {k}), key);
      UniqueOverwrite(tail, pk, k, x, key);
      var r := Overwrite(rows, pk, k, x);
      var rt := Overwrite(tail, pk, k, x);
      assert r == [r[0]] + rt;
      if pk(h) == k {
        OverwriteNothing(tail, pk, k, x);
        forall y | y in tail ensures key(y) != key(x) {
          assert y in Exclude(rows, pk, {k});
        }
      } else {
        assert h in Exclude(rows, pk, {k});
        forall y | y in rt ensures key(y) != key(h) {
          var i :| 0 <= i < |rt| && rt[i] == y;
          if pk(tail[i]) != k {
            assert tail[i] in tail;
          }
        }
      }
    }
  }
}

=== FILE: text.dfy ===
/**
 * The two string operations the request handlers perform: joining city names
 * with a separator (`",".join(names)`) and deleting every space from a text
 * (`s.replace(' ', '')`). `Split` is Python's `str.split(sep)`, the inverse
 * of `Join`, used to state what a joined string contains.
 */
module Text {

  /** `[sep].join(parts)`: the parts in order with one separator between neighbours. */
  function Join(parts: seq<string>, sep: char): (r: string)
    ensures |parts| == 0 ==> r == ""
    ensures |parts| > 0 ==> parts[0] <= r
    decreases |parts|
  {
    if |parts| == 0 then ""
    else if |parts| == 1 then parts[0]
    else parts[0] + [sep] + Join(parts[1..], sep)
  }

  /** Joining separator-free parts puts exactly one separator between each pair of neighbours. */
  lemma {:induction false} JoinSeparators(parts: seq<string>, sep: char)
    requires |parts| > 0
    requires forall i :: 0 <= i < |parts| ==> sep !in parts[i]
    ensures multiset(Join(parts, sep))[sep] == |parts| - 1
    decreases |parts|
  {
    assert multiset(parts[0])[sep] == 0;
    if |parts| > 1 {
      JoinSeparators(parts[1..], sep);
      assert Join(parts, sep) == parts[0] + [sep] + Join(parts[1..], sep);
    }
  }

  /** `s.split(sep)`: the maximal separator-free pieces; never empty (`"".split(",") == [""]`). */
  function Split(s: string, sep: char): (r: seq<string>)
    ensures |r| >= 1
    ensures forall i :: 0 <= i < |r| ==> sep !in r[i]
    decreases |s|
  {
    if |s| == 0 then [""]
    else
      var rest := Split(s[1..], sep);
      if s[0] == sep then [""] + rest
      else [[s[0]] + rest[0]] + rest[1..]
  }

  lemma {:induction false} SplitPiece(p: string, sep: char)
    requires sep !in p
    ensures Split(p, sep) == [p]
    decreases |p|
  {
    if |p| > 0 {
      assert p[0] in p;
      SplitPiece(p[1..], sep);
      assert p == [p[0]] + p[1..];
    }
  }

  lemma {:induction false} SplitAtFirst(p: string, t: string, sep: char)
    requires sep !in p
    ensures Split(p + [sep] + t, sep) == [p] + Split(t, sep)
    decreases |p|
  {
    var s := p + [sep] + t;
    if |p| == 0 {
      assert s[0] == sep && s[1..] == t;
    } else {
      assert s[0] == p[0] && s[1..] == p[1..] + [sep] + t;
      SplitAtFirst(p[1..], t, sep);
      assert [p[0]] + p[1..] == p;
    }
  }

  /** Splitting a join gives back the parts, provided no part contains the separator. */
  lemma {:induction false} SplitJoin(parts: seq<string>, sep: char)
    requires |parts| > 0
    requires forall i :: 0 <= i < |parts| ==> sep !in parts[i]
    ensures Split(Join(parts, sep), sep) == parts
    decreases |parts|
  {
    if |parts| == 1 {
      SplitPiece(parts[0], sep);
    } else {
      SplitJoin(parts[1..], sep);
      SplitAtFirst(parts[0], Join(parts[1..], sep), sep);
      assert [parts[0]] + parts[1..] == parts;
    }
  }

  /** Joining the pieces of a split gives back the string, whatever it contains. */
  lemma {:induction false} JoinSplit(s: string, sep: char)
    ensures Join(Split(s, sep), sep) == s
    decreases |s|
  {
    if |s| > 0 {
      var rest := Split(s[1..], sep);
      JoinSplit(s[1..], sep);
      if s[0] == sep {
        assert ([""] + rest)[1..] == rest;
        assert s == [sep] + s[1..];
      } else {
        var r := [[s[0]] + rest[0]] + rest[1..];
        if |rest| == 1 {
          assert s == [s[0]] + rest[0];
        } else {
          assert r[1..] == rest[1..];
          assert Join(rest, sep) == rest[0] + [sep] + Join(rest[1..], sep);
          assert s == [s[0]] + s[1..];
        }
      }
    }
  }

  /** `s.replace(' ', '')`: the text with every space deleted and everything else kept in order. */
  function RemoveSpaces(s: string): (r: string)
    ensures ' ' !in r
    ensures |r| <= |s|
    ensures forall c :: c != ' ' ==> multiset(r)[c] == multiset(s)[c]
    decreases |s|
  {
    if |s| == 0 then ""
    else
      assert s == [s[0]] + s[1..];
      if s[0] == ' ' then RemoveSpaces(s[1..])
      else [s[0]] + RemoveSpaces(s[1..])
  }

  /** A text without spaces is left as it is; in particular removing spaces twice is removing them once. */
  lemma {:induction false} RemoveSpacesKeepsSpaceless(s: string)
    requires ' ' !in s
    ensures RemoveSpaces(s) == s
    decreases |s|
  {
    if |s| > 0 {
      RemoveSpacesKeepsSpaceless(s[1..]);
    }
  }

  /** Removing spaces works piecewise, so the order of the kept characters is the original order. */
  lemma {:induction false} RemoveSpacesAppend(a: string, b: string)
    ensures RemoveSpaces(a + b) == RemoveSpaces(a) + RemoveSpaces(b)
    decreases |a|
  {
    if |a| == 0 {
      assert a + b == b;
    } else {
      assert (a + b)[0] == a[0] && (a + b)[1..] == a[1..] + b;
      RemoveSpacesAppend(a[1..], b);
    }
  }
}

=== FILE: update.dfy ===
/**
 * `update_trip`: overwrite a trip's columns, delete all of its links, then
 * recreate one link per selected city. Each step is its own statement against
 * the database and an exception anywhere ends the helper with `False`, so a
 * failure part-way leaves the earlier steps in place.
 */
module TripUpdate {
  import opened Wrappers
  import opened Rows
  import opened Models

  /** The store after the helper, and its boolean answer. */
  datatype Update = Update(db: Store, success: bool)

  /** The link rows that tie `tripId` to `cityIds`, the k-th under the k-th newIds id. */
  function NewLinks(tripId: string, cityIds: seq<string>, newIds: seq<string>): (r: seq<CityForTrip>)
    requires |newIds| >= |cityIds|
    ensures |r| == |cityIds|
    ensures forall k :: 0 <= k < |cityIds| ==> r[k] == CityForTrip(newIds[k], tripId, cityIds[k])
  {
    seq(|cityIds|, k requires 0 <= k < |cityIds| => CityForTrip(newIds[k], tripId, cityIds[k]))
  }

  /** Each id is unused when its turn comes: none is in `used`, and no two are equal. */
  predicate Fresh(used: set<string>, ids: seq<string>)
    decreases |ids|
  {
    |ids| == 0 || (ids[0] !in used && Fresh(used + {ids[0]}, ids[1..]))
  }

  /** Every id names exactly one city. */
  predicate CitiesExist(cities: seq<City>, cityIds: seq<string>)
  {
    forall k :: 0 <= k < |cityIds| ==> Get(cities, CityPk, cityIds[k]).Found?
  }

  /** `after` is `before` followed by the links of `tripId` to some prefix of `cityIds`. */
  predicate LinksPrefixAdded(before: seq<CityForTrip>, after: seq<CityForTrip>, tripId: string,
                             cityIds: seq<string>, newIds: seq<string>)
    requires |newIds| >= |cityIds|
  {
    && |before| <= |after| <= |before| + |cityIds|
    && after == before + NewLinks(tripId, cityIds[..|after| - |before|], newIds[..|after| - |before|])
  }

  lemma NewLinksCons(tripId: string, cityIds: seq<string>, newIds: seq<string>, n: nat)
    requires 0 < n <= |cityIds| && |newIds| >= |cityIds|
    ensures NewLinks(tripId, cityIds[..n], newIds[..n]) ==
            [CityForTrip(newIds[0], tripId, cityIds[0])] + NewLinks(tripId, cityIds[1..][..n - 1], newIds[1..][..n - 1])
  {
  }

  /**
   * The loop that recreates the links: for each selected city, a `get` on the
   * city and the creation of a link under a new id; the first failure stops it.
   */
  function AddLinks(db: Store, tripId: string, cityIds: seq<string>, newIds: seq<string>): (u: Update)
    requires |newIds| >= |cityIds|
    requires tripId in TripIds(db)
    ensures u.db.users == db.users && u.db.trips == db.trips && u.db.cities == db.cities
    ensures LinksPrefixAdded(db.links, u.db.links, tripId, cityIds, newIds)
    ensures u.success <==> |u.db.links| == |db.links| + |cityIds|
    decreases |cityIds|
  {
    if |cityIds| == 0 then
      assert db.links + NewLinks(tripId, [], []) == db.links;
      Update(db, true)
    else
      match Get(db.cities, CityPk, cityIds[0])
      case Found(_) =>
        (match CreateLink(db, CityForTrip(newIds[0], tripId, cityIds[0]))
         case Ok(next) =>
           var u := AddLinks(next, tripId, cityIds[1..], newIds[1..]);
           LinksPrefixCons(db.links, next.links, u.db.links, tripId, cityIds, newIds);
           u
         case Err(_) =>
           assert db.links + NewLinks(tripId, cityIds[..0], newIds[..0]) == db.links;
           Update(db, false))
      case _ =>
        assert db.links + NewLinks(tripId, cityIds[..0], newIds[..0]) == db.links;
        Update(db, false)
  }

  /** One link added in front of a prefix of the rest is a prefix of the whole. */
  lemma LinksPrefixCons(before: seq<CityForTrip>, next: seq<CityForTrip>, after: seq<CityForTrip>,
                        tripId: string, cityIds: seq<string>, newIds: seq<string>)
    requires 0 < |cityIds| <= |newIds|
    requires next == before + [CityForTrip(newIds[0], tripId, cityIds[0])]
    requires LinksPrefixAdded(next, after, tripId, cityIds[1..], newIds[1..])
    ensures LinksPrefixAdded(before, after, tripId, cityIds, newIds)
  {
    var n := |after| - |before|;
    NewLinksCons(tripId, cityIds, newIds, n);
    assert after == before + ([CityForTrip(newIds[0], tripId, cityIds[0])] +
                              NewLinks(tripId, cityIds[1..][..n - 1], newIds[1..][..n - 1]));
  }

  /** The loop completes exactly when every city exists and each new link id is unused when its turn comes. */
  lemma {:induction false} AddLinksSucceedsIff(db: Store, tripId: string, cityIds: seq<string>, newIds: seq<string>)
    requires |newIds| >= |cityIds| && tripId in TripIds(db)
    ensures AddLinks(db, tripId, cityIds, newIds).success <==>
            CitiesExist(db.cities, cityIds) && Fresh(LinkIds(db), newIds[..|cityIds|])
    decreases |cityIds|
  {
    if |cityIds| > 0 {
      var ids := newIds[..|cityIds|];
      assert ids[0] == newIds[0] && ids[1..] == newIds[1..][..|cityIds| - 1];
      match Get(db.cities, CityPk, cityIds[0])
      case Found(c) =>
        var l := CityForTrip(newIds[0], tripId, cityIds[0]);
        assert c in db.cities && c.id == cityIds[0];
        if CreateLink(db, l).Ok? {
          var next := CreateLink(db, l).value;
          AddLinksSucceedsIff(next, tripId, cityIds[1..], newIds[1..]);
          KeySetAppend(db.links, l, LinkPk);
          CitiesExistCons(db.cities, cityIds);
        }
      case _ =>
    }
  }

  lemma CitiesExistCons(cities: seq<City>, cityIds: seq<string>)
    requires |cityIds| > 0
    ensures CitiesExist(cities, cityIds) <==>
            Get(cities, CityPk, cityIds[0]).Found? && CitiesExist(cities, cityIds[1..])
  {
    assert forall k :: 1 <= k < |cityIds| ==> cityIds[1..][k - 1] == cityIds[k];
  }

  /**
   * `update_trip` as written. A trip id that `get` does not resolve, or an owner
   * the database refuses, ends it before any write; otherwise the edited trip is
   * saved, the trip's links are deleted, and the links are recreated until the
   * first selected city that cannot be linked. Nothing is rolled back.
   */
  function UpdateTrip(db: Store, tripId: string, associates: string, tripDate: int, totalCost: int,
                      selected: seq<string>, userId: string, newIds: seq<string>): (u: Update)
    requires |newIds| >= |selected|
    ensures !Get(db.trips, TripPk, tripId).Found? ==> u == Update(db, false)
    ensures userId !in UserIds(db) ==> u == Update(db, false)
    ensures Get(db.trips, TripPk, tripId).Found? && userId in UserIds(db) ==> (
              var kept := Exclude(db.links, LinkTrip, {tripId});
              && u.db.users == db.users && u.db.cities == db.cities
              && Replaced(db.trips, u.db.trips, TripPk, tripId, Trip(tripId, userId, associates, tripDate, totalCost))
              && LinksPrefixAdded(kept, u.db.links, tripId, selected, newIds)
              && (u.success <==> |u.db.links| == |kept| + |selected|)
              && (u.success <==> CitiesExist(db.cities, selected) && Fresh(KeySet(kept, LinkPk), newIds[..|selected|])))
  {
    match Get(db.trips, TripPk, tripId)
    case Found(_) =>
      var edited := Trip(tripId, userId, associates, tripDate, totalCost);
      (match SaveTrip(db, edited)
       case Ok(saved) =>
         assert tripId in TripIds(db);
         KeySetOverwrite(db.trips, TripPk, tripId, edited);
         var cleared := saved.(links := Exclude(saved.links, LinkTrip, {tripId}));
         AddLinksSucceedsIff(cleared, tripId, selected, newIds);
         AddLinks(cleared, tripId, selected, newIds)
       case Err(_) => Update(db, false))
    case _ => Update(db, false)
  }

  /**
   * After `update_trip` got past the save, the trip's links are the new links
   * for a prefix of the selected cities (all of them exactly when it answers
   * `True`), and the links of every other trip are untouched, in order.
   */
  lemma UpdateTripLinks(db: Store, tripId: string, associates: string, tripDate: int, totalCost: int,
                        selected: seq<string>, userId: string, newIds: seq<string>)
    requires |newIds| >= |selected|
    requires Get(db.trips, TripPk, tripId).Found? && userId in UserIds(db)
    ensures var u := UpdateTrip(db, tripId, associates, tripDate, totalCost, selected, userId, newIds);
            var mine := Select(u.db.links, LinkTrip, tripId);
            && |mine| <= |selected|
            && mine == NewLinks(tripId, selected[..|mine|], newIds[..|mine|])
            && (u.success <==> |mine| == |selected|)
            && Exclude(u.db.links, LinkTrip, {tripId}) == Exclude(db.links, LinkTrip, {tripId})
  {
    var u := UpdateTrip(db, tripId, associates, tripDate, totalCost, selected, userId, newIds);
    var kept := Exclude(db.links, LinkTrip, {tripId});
    var n := |u.db.links| - |kept|;
    var added := NewLinks(tripId, selected[..n], newIds[..n]);
    assert u.db.links == kept + added;
    KeySetExclude(db.links, LinkTrip, {tripId});
    SeparateTrip(kept, added, tripId);
  }

  /** Links of other trips followed by links of `tripId` separate back into the two parts. */
  lemma {:induction false} SeparateTrip(kept: seq<CityForTrip>, added: seq<CityForTrip>, tripId: string)
    requires tripId !in KeySet(kept, LinkTrip)
    requires forall k :: 0 <= k < |added| ==> added[k].tripId == tripId
    ensures Select(kept + added, LinkTrip, tripId) == added
    ensures Exclude(kept + added, LinkTrip, {tripId}) == kept
  {
    SelectAbsent(kept, LinkTrip, tripId);
    SelectEvery(added, LinkTrip, tripId);
    SelectAppend(kept, added, LinkTrip, tripId);
    ExcludeNothing(kept, LinkTrip, {tripId});
    ExcludeEvery(added, LinkTrip, {tripId});
    ExcludeAppend(kept, added, LinkTrip, {tripId});
  }

  lemma {:induction false} AddLinksKeepsIntegrity(db: Store, tripId: string, cityIds: seq<string>, newIds: seq<string>)
    requires Integrity(db) && |newIds| >= |cityIds| && tripId in TripIds(db)
    ensures Integrity(AddLinks(db, tripId, cityIds, newIds).db)
    decreases |cityIds|
  {
    if |cityIds| > 0 {
      match Get(db.cities, CityPk, cityIds[0])
      case Found(c) =>
        var l := CityForTrip(newIds[0], tripId, cityIds[0]);
        if CreateLink(db, l).Ok? {
          CreateLinkKeepsIntegrity(db, l);
          AddLinksKeepsIntegrity(CreateLink(db, l).value, tripId, cityIds[1..], newIds[1..]);
        }
      case _ =>
    }
  }

  /** Whatever its answer, `update_trip` leaves the schema's guarantees intact. */
  lemma UpdateTripKeepsIntegrity(db: Store, tripId: string, associates: string, tripDate: int, totalCost: int,
                                 selected: seq<string>, userId: string, newIds: seq<string>)
    requires |newIds| >= |selected|
    requires Integrity(db)
    ensures Integrity(UpdateTrip(db, tripId, associates, tripDate, totalCost, selected, userId, newIds).db)
  {
    if Get(db.trips, TripPk, tripId).Found? && userId in UserIds(db) {
      var edited := Trip(tripId, userId, associates, tripDate, totalCost);
      SaveTripKeepsIntegrity(db, edited);
      var saved := SaveTrip(db, edited).value;
      var cleared := saved.(links := Exclude(saved.links, LinkTrip, {tripId}));
      UniqueExclude(saved.links, LinkPk, LinkTrip, {tripId});
      assert KeySet(cleared.links, LinkTrip) <= KeySet(saved.links, LinkTrip);
      assert KeySet(cleared.links, LinkCity) <= KeySet(saved.links, LinkCity);
      KeySetOverwrite(db.trips, TripPk, tripId, edited);
      AddLinksKeepsIntegrity(cleared, tripId, selected, newIds);
    }
  }

  /** The other tables' application rules are not affected by `update_trip`. */
  lemma UpdateTripKeepsUserAndCityRules(db: Store, tripId: string, associates: string, tripDate: int, totalCost: int,
                                        selected: seq<string>, userId: string, newIds: seq<string>)
    requires |newIds| >= |selected|
    requires UsernamesUnique(db) && PlacesUnique(db)
    ensures var u := UpdateTrip(db, tripId, associates, tripDate, totalCost, selected, userId, newIds);
            UsernamesUnique(u.db) && PlacesUnique(u.db)
  {
  }

  /**
   * The loop ran `n` steps and then stopped at the first selected city it
   * cannot link: every city before it exists, and at the stopping point the
   * city does not resolve to one row or the new link id is already in `used`
   * or earlier in the run.
   */
  predicate StoppedAt(cities: seq<City>, used: set<string>, cityIds: seq<string>, newIds: seq<string>, n: int)
  {
    && 0 <= n <= |cityIds| <= |newIds|
    && CitiesExist(cities, cityIds[..n])
    && (n < |cityIds| ==>
          !Get(cities, CityPk, cityIds[n]).Found? || newIds[n] in used || newIds[n] in newIds[..n])
  }

  lemma {:induction false} AddLinksStopsAtFirstFailure(db: Store, tripId: string, cityIds: seq<string>,
                                                       newIds: seq<string>)
    requires |newIds| >= |cityIds| && tripId in TripIds(db)
    ensures StoppedAt(db.cities, LinkIds(db), cityIds, newIds,
                      |AddLinks(db, tripId, cityIds, newIds).db.links| - |db.links|)
    decreases |cityIds|
  {
    if |cityIds| == 0 {
      assert cityIds[..0] == [];
    } else if !Get(db.cities, CityPk, cityIds[0]).Found? {
      assert AddLinks(db, tripId, cityIds, newIds).db == db;
      assert cityIds[..0] == [];
    } else {
      var l := CityForTrip(newIds[0], tripId, cityIds[0]);
      assert cityIds[0] in CityIds(db) by {
        var c := Get(db.cities, CityPk, cityIds[0]).row;
        assert c in db.cities && c.id == cityIds[0];
      }
      if CreateLink(db, l).Ok? {
        var next := CreateLink(db, l).value;
        var after := AddLinks(next, tripId, cityIds[1..], newIds[1..]).db.links;
        assert AddLinks(db, tripId, cityIds, newIds).db.links == after;
        AddLinksStopsAtFirstFailure(next, tripId, cityIds[1..], newIds[1..]);
        KeySetAppend(db.links, l, LinkPk);
        StoppedAtCons(db.cities, LinkIds(db), cityIds, newIds, |after| - |db.links|);
      } else {
        assert AddLinks(db, tripId, cityIds, newIds).db == db;
        assert cityIds[..0] == [] && newIds[0] in LinkIds(db);
      }
    }
  }

  /** A linked first city extends where the rest stopped by one step. */
  lemma StoppedAtCons(cities: seq<City>, used: set<string>, cityIds: seq<string>, newIds: seq<string>, n: int)
    requires 0 < |cityIds| <= |newIds| && Get(cities, CityPk, cityIds[0]).Found?
    requires StoppedAt(cities, used + {newIds[0]}, cityIds[1..], newIds[1..], n - 1)
    ensures StoppedAt(cities, used, cityIds, newIds, n)
  {
    assert cityIds[..n][1..] == cityIds[1..][..n - 1];
    CitiesExistCons(cities, cityIds[..n]);
    if n < |cityIds| {
      assert cityIds[1..][n - 1] == cityIds[n] && newIds[1..][n - 1] == newIds[n];
      assert newIds[..n] == [newIds[0]] + newIds[1..][..n - 1];
    }
  }

  /**
   * When `update_trip` gets past the save, the trip keeps links for exactly
   * the selected cities before the first one the loop could not link, and
   * that city does not resolve to one row or its new id was already taken.
   */
  lemma UpdateTripStopsAtFirstFailure(db: Store, tripId: string, associates: string, tripDate: int,
                                      totalCost: int, selected: seq<string>, userId: string, newIds: seq<string>)
    requires |newIds| >= |selected|
    requires Get(db.trips, TripPk, tripId).Found? && userId in UserIds(db)
    ensures var u := UpdateTrip(db, tripId, associates, tripDate, totalCost, selected, userId, newIds);
            var mine := Select(u.db.links, LinkTrip, tripId);
            var n := |mine|;
            && n <= |selected|
            && mine == NewLinks(tripId, selected[..n], newIds[..n])
            && CitiesExist(db.cities, selected[..n])
            && (n < |selected| ==>
                  || !Get(db.cities, CityPk, selected[n]).Found?
                  || newIds[n] in KeySet(Exclude(db.links, LinkTrip, {tripId}), LinkPk)
                  || newIds[n] in newIds[..n])
  {
    var cleared := UpdateTripIsAddLinks(db, tripId, associates, tripDate, totalCost, selected, userId, newIds);
    KeySetExclude(db.links, LinkTrip, {tripId});
    ClearedStopsAtFirstFailure(cleared, tripId, selected, newIds);
  }

  /** `AddLinksStopsAtFirstFailure` read through the trip's own links, on a store holding none of them. */
  lemma ClearedStopsAtFirstFailure(cleared: Store, tripId: string, selected: seq<string>, newIds: seq<string>)
    requires |newIds| >= |selected| && tripId in TripIds(cleared)
    requires tripId !in KeySet(cleared.links, LinkTrip)
    ensures var mine := Select(AddLinks(cleared, tripId, selected, newIds).db.links, LinkTrip, tripId);
            var n := |mine|;
            && n <= |selected|
            && mine == NewLinks(tripId, selected[..n], newIds[..n])
            && StoppedAt(cleared.cities, LinkIds(cleared), selected, newIds, n)
  {
    var after := AddLinks(cleared, tripId, selected, newIds).db.links;
    var n := |after| - |cleared.links|;
    TripLinksAfterAdding(cleared.links, after, tripId, selected, newIds);
    AddLinksStopsAtFirstFailure(cleared, tripId, selected, newIds);
    assert |Select(after, LinkTrip, tripId)| == n;
    assert StoppedAt(cleared.cities, LinkIds(cleared), selected, newIds, n);
  }

  /** Links of other trips followed by a prefix's new links for `tripId`: the trip's links are exactly that prefix. */
  lemma TripLinksAfterAdding(kept: seq<CityForTrip>, after: seq<CityForTrip>, tripId: string,
                             selected: seq<string>, newIds: seq<string>)
    requires |newIds| >= |selected|
    requires tripId !in KeySet(kept, LinkTrip)
    requires LinksPrefixAdded(kept, after, tripId, selected, newIds)
    ensures var n := |after| - |kept|;
            && |Select(after, LinkTrip, tripId)| == n
            && Select(after, LinkTrip, tripId) == NewLinks(tripId, selected[..n], newIds[..n])
  {
    var n := |after| - |kept|;
    var added := NewLinks(tripId, selected[..n], newIds[..n]);
    assert after == kept + added && |added| == n;
    SeparateTrip(kept, added, tripId);
  }

  /** Past the owner and trip lookups, `update_trip` is `AddLinks` on the saved store with the trip's links removed. */
  lemma UpdateTripIsAddLinks(db: Store, tripId: string, associates: string, tripDate: int, totalCost: int,
                             selected: seq<string>, userId: string, newIds: seq<string>) returns (cleared: Store)
    requires |newIds| >= |selected|
    requires Get(db.trips, TripPk, tripId).Found? && userId in UserIds(db)
    ensures cleared.cities == db.cities && cleared.links == Exclude(db.links, LinkTrip, {tripId})
    ensures tripId in TripIds(cleared)
    ensures UpdateTrip(db, tripId, associates, tripDate, totalCost, selected, userId, newIds)
            == AddLinks(cleared, tripId, selected, newIds)
  {
    var edited := Trip(tripId, userId, associates, tripDate, totalCost);
    var saved := SaveTrip(db, edited).value;
    cleared := saved.(links := Exclude(saved.links, LinkTrip, {tripId}));
    assert tripId in TripIds(db);
    KeySetOverwrite(db.trips, TripPk, tripId, edited);
  }

  // ---------------------------------------------------------------- findings

  /**
   * `update_trip` does not re-check the one-trip-per-day rule that adding a
   * trip enforces: moving any trip onto the owner and day of another trip
   * succeeds, and leaves two trips for that user on that day, so a later
   * lookup of the trip by user and day is ambiguous.
   */
  lemma UpdateTripCanBreakOneTripPerDay(db: Store, a: Trip, b: Trip)
    requires Consistent(db)
    requires a in db.trips && b in db.trips && a.id != b.id
    ensures var u := UpdateTrip(db, b.id, b.associates, a.tripDate, b.totalCost, [], a.userId, []);
            && u.success && !OneTripPerDay(u.db)
            && Get(u.db.trips, TripDay, (a.userId, a.tripDate)).Multiple?
  {
    var u := UpdateTrip(db, b.id, b.associates, a.tripDate, b.totalCost, [], a.userId, []);
    UniqueSelect(db.trips, TripPk, b.id);
    assert b in Select(db.trips, TripPk, b.id);
    assert a.userId in KeySet(db.trips, TripOwner);
    var i :| 0 <= i < |db.trips| && db.trips[i] == a;
    var j :| 0 <= j < |db.trips| && db.trips[j] == b;
    assert TripDay(u.db.trips[i]) == TripDay(u.db.trips[j]);
    DuplicateKey(u.db.trips, TripDay, i, j);
    TwoRowsSameKey(u.db.trips, TripDay, i, j);
  }

  /**
   * `update_trip` has no rollback: when the first selected city does not exist
   * it answers `False`, yet the trip has already been rewritten and has lost
   * every link it had.
   */
  lemma UpdateTripFailureKeepsPartialWrites(db: Store, tripId: string, associates: string, tripDate: int,
                                            totalCost: int, selected: seq<string>, userId: string,
                                            newIds: seq<string>)
    requires Integrity(db)
    requires |newIds| >= |selected|
    requires tripId in TripIds(db) && userId in UserIds(db)
    requires |selected| > 0 && selected[0] !in CityIds(db)
    ensures var u := UpdateTrip(db, tripId, associates, tripDate, totalCost, selected, userId, newIds);
            && !u.success
            && Trip(tripId, userId, associates, tripDate, totalCost) in u.db.trips
            && Select(u.db.links, LinkTrip, tripId) == []
            && (Select(db.links, LinkTrip, tripId) != [] ==> u.db != db)
  {
    var u := UpdateTrip(db, tripId, associates, tripDate, totalCost, selected, userId, newIds);
    var edited := Trip(tripId, userId, associates, tripDate, totalCost);
    UniqueSelect(db.trips, TripPk, tripId);
    var saved := SaveTrip(db, edited).value;
    var cleared := saved.(links := Exclude(saved.links, LinkTrip, {tripId}));
    assert !Get(db.cities, CityPk, selected[0]).Found?;
    assert u == Update(cleared, false);
    KeySetExclude(saved.links, LinkTrip, {tripId});
    SelectAbsent(cleared.links, LinkTrip, tripId);
    var t :| t in db.trips && t.id == tripId;
    var i :| 0 <= i < |db.trips| && db.trips[i] == t;
    assert u.db.trips[i] == edited;
  }

  // --------------------------------------------------------------- corrected

  /**
   * Everything the edit needs, checked before the first write: the trip and
   * the owner exist, no OTHER trip of the owner is on the new day, every
   * selected city exists, and the new link ids are unused.
   */
  predicate Admissible(db: Store, tripId: string, tripDate: int, selected: seq<string>, userId: string,
                       newIds: seq<string>)
    requires |newIds| >= |selected|
  {
    && Get(db.trips, TripPk, tripId).Found?
    && userId in UserIds(db)
    && (userId, tripDate) !in KeySet(Exclude(db.trips, TripPk, {tripId}), TripDay)
    && CitiesExist(db.cities, selected)
    && Fresh(KeySet(Exclude(db.links, LinkTrip, {tripId}), LinkPk), newIds[..|selected|])
  }

  /**
   * The edit as evidently intended: the same checks `register_new_trip`
   * performs, made up front, so that a refused edit writes nothing.
   */
  function UpdateTripChecked(db: Store, tripId: string, associates: string, tripDate: int, totalCost: int,
                             selected: seq<string>, userId: string, newIds: seq<string>): (u: Update)
    requires |newIds| >= |selected|
    ensures u.success <==> Admissible(db, tripId, tripDate, selected, userId, newIds)
    ensures !u.success ==> u.db == db
    ensures u.success ==>
              Select(u.db.links, LinkTrip, tripId) == NewLinks(tripId, selected, newIds) &&
              Trip(tripId, userId, associates, tripDate, totalCost) in u.db.trips
  {
    if Admissible(db, tripId, tripDate, selected, userId, newIds) then
      var u := UpdateTrip(db, tripId, associates, tripDate, totalCost, selected, userId, newIds);
      UpdateTripLinks(db, tripId, associates, tripDate, totalCost, selected, userId, newIds);
      assert selected[..|selected|] == selected && newIds[..|selected|][..|selected|] == newIds[..|selected|];
      var t := Get(db.trips, TripPk, tripId).row;
      var i :| 0 <= i < |db.trips| && db.trips[i] == t;
      assert u.db.trips[i] == Trip(tripId, userId, associates, tripDate, totalCost);
      u
    else Update(db, false)
  }

  /** The checked edit keeps every rule, the one-trip-per-day rule included. */
  lemma UpdateTripCheckedKeepsConsistency(db: Store, tripId: string, associates: string, tripDate: int,
                                          totalCost: int, selected: seq<string>, userId: string,
                                          newIds: seq<string>)
    requires |newIds| >= |selected|
    requires Consistent(db)
    ensures Consistent(UpdateTripChecked(db, tripId, associates, tripDate, totalCost, selected, userId, newIds).db)
  {
    if Admissible(db, tripId, tripDate, selected, userId, newIds) {
      var edited := Trip(tripId, userId, associates, tripDate, totalCost);
      UpdateTripKeepsIntegrity(db, tripId, associates, tripDate, totalCost, selected, userId, newIds);
      assert tripId in TripIds(db);
      UniqueOverwrite(db.trips, TripPk, tripId, edited, TripDay);
      var u := UpdateTrip(db, tripId, associates, tripDate, totalCost, selected, userId, newIds);
      assert u.db.trips == Overwrite(db.trips, TripPk, tripId, edited);
    }
  }
}

=== FILE: views.dfy ===
/**
 * The request handlers. Each one is a pure transition from the store, the
 * session and the posted fields to a new store, a new session and a response.
 * Rendering is reduced to which page is shown with which notice and context;
 * an exception no handler catches becomes a `ServerError` response carrying
 * the session as the handler left it.
 */
module Views {
  import opened Wrappers
  import opened Rows
  import opened Models
  import opened Queries
  import opened TripUpdate
  import Text

  /** One entry of the candidate-city snapshot (`cities_data`) kept between opening and submitting an edit. */
  datatype CityChoice = CityChoice(cityId: string, cityName: string, selected: bool)

  /** The session keys the handlers use; a key never written is `None`. */
  datatype Session = Session(userId: Option<string>, tripId: Option<string>, citiesData: Option<seq<CityChoice>>)

  /** The form pages rendered without context. */
  datatype Page = IndexPage | AddNewTripPage | AddNewDestinationPage

  /** The one-line notices a handler can attach. */
  datatype Notice =
    | NoNotice
    | CredentialsNotExisting
    | UsernameTaken
    | AlreadyTravelling
    | DestinationExisting
    | TripModified
    | ModifyFailed

  datatype Response =
    | Show(page: Page, notice: Notice)
    | UserMenu(notice: Notice, summaries: seq<TripSummary>)
    | TripList(notice: Notice, trips: seq<Trip>)
    | ManageTrip(trip: Trip, choices: seq<CityChoice>)
    | RedirectToUserMenu
    | ServerError(fault: Fault)

  datatype Outcome = Outcome(db: Store, session: Session, response: Response)

  function ChoiceId(c: CityChoice): string { c.cityId }

  /** The user menu with the trips of `owner` and their destinations. */
  function Menu(db: Store, s: Session, owner: Option<string>, notice: Notice): (o: Outcome)
    ensures o.db == db && o.session == s
    ensures o.response.UserMenu? || o.response.ServerError?
    ensures Integrity(db) ==>
              TripsWithDestinations(db, owner).Ok? &&
              o.response == UserMenu(notice, TripsWithDestinations(db, owner).value)
  {
    assert Integrity(db) ==> TripsWithDestinations(db, owner).Ok? by {
      if Integrity(db) { TripsWithDestinationsResolve(db, owner); }
    }
    match TripsWithDestinations(db, owner)
    case Ok(ts) => Outcome(db, s, UserMenu(notice, ts))
    case Err(f) => Outcome(db, s, ServerError(f))
  }

  // ------------------------------------------------------------------ login

  /** `login`: a `get` on the exact username and password. */
  function Login(db: Store, s: Session, username: string, password: string): (o: Outcome)
    ensures o.db == db
    ensures (username, password) !in KeySet(db.users, Credentials) ==>
              o == Outcome(db, s, Show(IndexPage, CredentialsNotExisting))
    ensures o.session == s ||
            exists u :: u in db.users && Credentials(u) == (username, password) &&
                        o.session == s.(userId := Some(u.id))
    ensures UsernamesUnique(db) ==>
              forall u :: u in db.users && Credentials(u) == (username, password) ==>
                o.session == s.(userId := Some(u.id))
    ensures UsernamesUnique(db) && Integrity(db) ==>
              forall u :: u in db.users && Credentials(u) == (username, password) ==>
                TripsWithDestinations(db, Some(u.id)).Ok? &&
                o.response == UserMenu(NoNotice, TripsWithDestinations(db, Some(u.id)).value)
  {
    assert UsernamesUnique(db) ==> |Select(db.users, Credentials, (username, password))| <= 1 by {
      if UsernamesUnique(db) {
        UniqueFiner(db.users, Username, Credentials);
        UniqueSelect(db.users, Credentials, (username, password));
      }
    }
    match Get(db.users, Credentials, (username, password))
    case NotFound => Outcome(db, s, Show(IndexPage, CredentialsNotExisting))
    case Multiple => Outcome(db, s, ServerError(MultipleObjectsReturned))
    case Found(u) => Menu(db, s.(userId := Some(u.id)), Some(u.id), NoNotice)
  }

  // ----------------------------------------------------------- registration

  /** `register_user`: refuse a taken username, otherwise create the user and log in as them. */
  function RegisterUser(db: Store, s: Session, newId: string, name: string, surname: string,
                        dateOfBirth: int, username: string, password: string, email: string): (o: Outcome)
    ensures username in KeySet(db.users, Username) ==> o.db == db && o.session == s
    ensures username in KeySet(db.users, Username) && UsernamesUnique(db) ==>
              o.response == Show(IndexPage, UsernameTaken)
    ensures username !in KeySet(db.users, Username) && newId in UserIds(db) ==>
              o == Outcome(db, s, ServerError(IntegrityError))
    ensures username !in KeySet(db.users, Username) && newId !in UserIds(db) ==>
              o.db == db.(users := db.users + [User(newId, name, surname, dateOfBirth, username, password, email)]) &&
              o.session == s.(userId := Some(newId))
    ensures username !in KeySet(db.users, Username) && newId !in UserIds(db) && Integrity(db) ==>
              TripsWithDestinations(o.db, Some(newId)).Ok? &&
              o.response == UserMenu(NoNotice, TripsWithDestinations(o.db, Some(newId)).value)
    ensures UsernamesUnique(db) ==> UsernamesUnique(o.db)
  {
    assert UsernamesUnique(db) ==> |Select(db.users, Username, username)| <= 1 by {
      if UsernamesUnique(db) { UniqueSelect(db.users, Username, username); }
    }
    match Get(db.users, Username, username)
    case Found(_) => Outcome(db, s, Show(IndexPage, UsernameTaken))
    case Multiple => Outcome(db, s, ServerError(MultipleObjectsReturned))
    case NotFound =>
      var u := User(newId, name, surname, dateOfBirth, username, password, email);
      match CreateUser(db, u)
      case Err(f) => Outcome(db, s, ServerError(f))
      case Ok(db') =>
        UniqueAppendWhen(db.users, u, Username);
        assert Integrity(db) ==> Integrity(db') by {
          if Integrity(db) { CreateUserKeepsIntegrity(db, u); }
        }
        Menu(db', s.(userId := Some(newId)), Some(newId), NoNotice)
  }

  /** `register_new_trip`: refuse a second trip of the session user on one day, otherwise create it. */
  function RegisterNewTrip(db: Store, s: Session, newId: string, associates: string, tripDate: int,
                           totalCost: int): (o: Outcome)
    ensures o.session == s
    ensures s.userId.None? ==> o == Outcome(db, s, ServerError(MissingSessionKey("user_id")))
    ensures s.userId.Some? && (s.userId.value, tripDate) in KeySet(db.trips, TripDay) ==> o.db == db
    ensures s.userId.Some? && (s.userId.value, tripDate) in KeySet(db.trips, TripDay) && OneTripPerDay(db) ==>
              o.response == Show(AddNewTripPage, AlreadyTravelling)
    ensures s.userId.Some? && (s.userId.value, tripDate) !in KeySet(db.trips, TripDay) ==>
              if newId !in TripIds(db) && s.userId.value in UserIds(db)
              then o.db == db.(trips := db.trips + [Trip(newId, s.userId.value, associates, tripDate, totalCost)])
              else o == Outcome(db, s, ServerError(IntegrityError))
    ensures s.userId.Some? && (s.userId.value, tripDate) !in KeySet(db.trips, TripDay) &&
            newId !in TripIds(db) && s.userId.value in UserIds(db) && Integrity(db) ==>
              TripsWithDestinations(o.db, s.userId).Ok? &&
              o.response == UserMenu(NoNotice, TripsWithDestinations(o.db, s.userId).value)
    ensures OneTripPerDay(db) ==> OneTripPerDay(o.db)
  {
    match s.userId
    case None => Outcome(db, s, ServerError(MissingSessionKey("user_id")))
    case Some(uid) =>
      assert OneTripPerDay(db) ==> |Select(db.trips, TripDay, (uid, tripDate))| <= 1 by {
        if OneTripPerDay(db) { UniqueSelect(db.trips, TripDay, (uid, tripDate)); }
      }
      match Get(db.trips, TripDay, (uid, tripDate))
      case Found(_) => Outcome(db, s, Show(AddNewTripPage, AlreadyTravelling))
      case Multiple => Outcome(db, s, ServerError(MultipleObjectsReturned))
      case NotFound =>
        var t := Trip(newId, uid, associates, tripDate, totalCost);
        match CreateTrip(db, t)
        case Err(f) => Outcome(db, s, ServerError(f))
        case Ok(db') =>
          UniqueAppendWhen(db.trips, t, TripDay);
          assert Integrity(db) ==> Integrity(db') by {
            if Integrity(db) { CreateTripKeepsIntegrity(db, t); }
          }
          Menu(db', s, s.userId, NoNotice)
  }

  /** `register_new_destination`: refuse a known (name, country) pair, otherwise create the city. */
  function RegisterNewDestination(db: Store, s: Session, newId: string, cityName: string, country: string,
                                  population: int): (o: Outcome)
    ensures o.session == s
    ensures (cityName, country) in KeySet(db.cities, Place) ==> o.db == db
    ensures (cityName, country) in KeySet(db.cities, Place) && PlacesUnique(db) ==>
              o.response == Show(AddNewDestinationPage, DestinationExisting)
    ensures (cityName, country) !in KeySet(db.cities, Place) ==>
              if newId !in CityIds(db)
              then o.db == db.(cities := db.cities + [City(newId, cityName, country, population)])
              else o == Outcome(db, s, ServerError(IntegrityError))
    ensures (cityName, country) !in KeySet(db.cities, Place) && newId !in CityIds(db) && Integrity(db) ==>
              TripsWithDestinations(o.db, s.userId).Ok? &&
              o.response == UserMenu(NoNotice, TripsWithDestinations(o.db, s.userId).value)
    ensures PlacesUnique(db) ==> PlacesUnique(o.db)
  {
    assert PlacesUnique(db) ==> |Select(db.cities, Place, (cityName, country))| <= 1 by {
      if PlacesUnique(db) { UniqueSelect(db.cities, Place, (cityName, country)); }
    }
    match Get(db.cities, Place, (cityName, country))
    case Found(_) => Outcome(db, s, Show(AddNewDestinationPage, DestinationExisting))
    case Multiple => Outcome(db, s, ServerError(MultipleObjectsReturned))
    case NotFound =>
      var c := City(newId, cityName, country, population);
      match CreateCity(db, c)
      case Err(f) => Outcome(db, s, ServerError(f))
      case Ok(db') =>
        UniqueAppendWhen(db.cities, c, Place);
        assert Integrity(db) ==> Integrity(db') by {
          if Integrity(db) { CreateCityKeepsIntegrity(db, c); }
        }
        Menu(db', s, s.userId, NoNotice)
  }

  // --------------------------------------------------------------- listings

  /** `manage_trips`: the session user's trips by date (none when nobody is logged in). */
  function ManageTrips(db: Store, s: Session): (o: Outcome)
    ensures o.db == db && o.session == s && o.response.TripList?
    ensures SortedByDate(o.response.trips)
    ensures forall t :: t in o.response.trips <==> t in db.trips && s.userId == Some(t.userId)
    ensures multiset(o.response.trips) == multiset(Select(db.trips, Owner, s.userId))
    ensures forall d :: Select(o.response.trips, TripDate, d) == Select(Select(db.trips, Owner, s.userId), TripDate, d)
  {
    var trips := TripsForUser(db, s.userId);
    assert forall d :: Select(trips, TripDate, d) == Select(Select(db.trips, Owner, s.userId), TripDate, d) by {
      forall d ensures Select(trips, TripDate, d) == Select(Select(db.trips, Owner, s.userId), TripDate, d) {
        TripsForUserStable(db, s.userId, d);
      }
    }
    Outcome(db, s, TripList(NoNotice, trips))
  }

  /** `user_menu`: requires a logged-in session. */
  function UserMenuView(db: Store, s: Session): (o: Outcome)
    ensures o.db == db && o.session == s
    ensures s.userId.None? ==> o.response == ServerError(MissingSessionKey("user_id"))
    ensures s.userId.Some? && Integrity(db) ==>
              TripsWithDestinations(db, s.userId).Ok? &&
              o.response == UserMenu(NoNotice, TripsWithDestinations(db, s.userId).value)
  {
    match s.userId
    case None => Outcome(db, s, ServerError(MissingSessionKey("user_id")))
    case Some(uid) => Menu(db, s, s.userId, NoNotice)
  }

  // ------------------------------------------------------------------ edits

  /**
   * What the edit page offers: every city exactly once, in city-table order,
   * marked selected exactly when one of the trip's links points at it.
   */
  predicate IsSnapshotOf(choices: seq<CityChoice>, db: Store, tripId: string)
  {
    && |choices| == |db.cities|
    && forall i :: 0 <= i < |db.cities| ==>
         && choices[i].cityId == db.cities[i].id
         && choices[i].cityName == db.cities[i].cityName
         && (choices[i].selected <==> db.cities[i].id in KeySet(LinksOf(db, tripId), LinkCity))
  }

  /** Every city in table order, marked when its id is among `linked`. */
  function Snapshot(cities: seq<City>, linked: set<string>): (r: seq<CityChoice>)
    ensures |r| == |cities|
    ensures forall i :: 0 <= i < |cities| ==>
              r[i] == CityChoice(cities[i].id, cities[i].cityName, cities[i].id in linked)
  {
    seq(|cities|, i requires 0 <= i < |cities| =>
      CityChoice(cities[i].id, cities[i].cityName, cities[i].id in linked))
  }

  /** The snapshot offers every city exactly once by id, and flags an entry exactly when its city is linked. */
  lemma SnapshotListsEveryCity(cities: seq<City>, linked: set<string>)
    ensures KeySet(Snapshot(cities, linked), ChoiceId) == KeySet(cities, CityPk)
    ensures forall c :: c in Snapshot(cities, linked) ==> (c.selected <==> c.cityId in linked)
  {
    var r := Snapshot(cities, linked);
    forall id | id in KeySet(cities, CityPk) ensures id in KeySet(r, ChoiceId) {
      var i :| 0 <= i < |cities| && cities[i].id == id;
      assert r[i] in r;
    }
    forall id | id in KeySet(r, ChoiceId) ensures id in KeySet(cities, CityPk) {
      var i :| 0 <= i < |r| && r[i].cityId == id;
      assert cities[i] in cities;
    }
  }

  /** The ids of the fetched cities are the city ids the links carry. */
  lemma LinkedCityIds(db: Store, links: seq<CityForTrip>)
    requires LinkedCities(db, links).Ok?
    ensures KeySet(LinkedCities(db, links).value, CityPk) == KeySet(links, LinkCity)
  {
    var linked := LinkedCities(db, links).value;
    forall x | x in KeySet(links, LinkCity) ensures x in KeySet(linked, CityPk) {
      var l :| l in links && l.cityId == x;
      var k :| 0 <= k < |links| && links[k] == l;
      assert linked[k] in linked;
    }
    forall x | x in KeySet(linked, CityPk) ensures x in KeySet(links, LinkCity) {
      var c :| c in linked && c.id == x;
      var k :| 0 <= k < |linked| && linked[k] == c;
      assert links[k] in links;
    }
  }

  /**
   * `get_edit_data`: remember the trip id in the session (before anything can
   * fail), load the trip, and build and remember the candidate-city snapshot.
   */
  function GetEditData(db: Store, s: Session, tripId: string): (o: Outcome)
    ensures o.db == db
    ensures o.session.userId == s.userId && o.session.tripId == Some(tripId)
    ensures !Get(db.trips, TripPk, tripId).Found? ==>
              o == Outcome(db, s.(tripId := Some(tripId)),
                           ServerError(if tripId in TripIds(db) then MultipleObjectsReturned else DoesNotExist))
    ensures o.response.ManageTrip? ==>
              && Get(db.trips, TripPk, tripId).Found?
              && o.session == s.(tripId := Some(tripId), citiesData := Some(o.response.choices))
              && o.response.trip == Get(db.trips, TripPk, tripId).row.(associates := o.response.trip.associates)
              && o.response.trip.associates == Text.RemoveSpaces(Get(db.trips, TripPk, tripId).row.associates)
              && IsSnapshotOf(o.response.choices, db, tripId)
    ensures Integrity(db) && tripId in TripIds(db) ==> o.response.ManageTrip?
  {
    var s1 := s.(tripId := Some(tripId));
    assert Integrity(db) && tripId in TripIds(db) ==>
             Get(db.trips, TripPk, tripId).Found? && LinkedCities(db, LinksOf(db, tripId)).Ok? by {
      if Integrity(db) && tripId in TripIds(db) {
        UniqueSelect(db.trips, TripPk, tripId);
        var links := LinksOf(db, tripId);
        forall l | l in links ensures l.cityId in CityIds(db) {
          assert l.cityId in KeySet(db.links, LinkCity);
        }
        LinkedCitiesResolve(db, links);
      }
    }
    match Get(db.trips, TripPk, tripId)
    case NotFound => Outcome(db, s1, ServerError(DoesNotExist))
    case Multiple => Outcome(db, s1, ServerError(MultipleObjectsReturned))
    case Found(t) =>
      var links := LinksOf(db, tripId);
      match LinkedCities(db, links)
      case Err(f) => Outcome(db, s1, ServerError(f))
      case Ok(linked) =>
        LinkedCityIds(db, links);
        var snapshot := Snapshot(db.cities, KeySet(linked, CityPk));
        Outcome(db, s1.(citiesData := Some(snapshot)),
                ManageTrip(t.(associates := Text.RemoveSpaces(t.associates)), snapshot))
  }

  /** The ids of the snapshot entries whose flag was posted, in snapshot order. */
  function SelectedCities(choices: seq<CityChoice>, posted: set<string>): (r: seq<string>)
    ensures |r| <= |choices|
    ensures forall x :: x in r <==> x in posted && x in KeySet(choices, ChoiceId)
    decreases |choices|
  {
    if |choices| == 0 then []
    else
      var rest := SelectedCities(choices[1..], posted);
      assert choices == [choices[0]] + choices[1..];
      KeySetCons(choices, ChoiceId);
      if choices[0].cityId in posted then [choices[0].cityId] + rest else rest
  }

  /** Selection works entry by entry, so it keeps the snapshot's order. */
  lemma {:induction false} SelectedCitiesAppend(a: seq<CityChoice>, b: seq<CityChoice>, posted: set<string>)
    ensures SelectedCities(a + b, posted) == SelectedCities(a, posted) + SelectedCities(b, posted)
    decreases |a|
  {
    if |a| == 0 {
      assert a + b == b;
    } else {
      assert (a + b)[0] == a[0] && (a + b)[1..] == a[1..] + b;
      SelectedCitiesAppend(a[1..], b, posted);
    }
  }

  /** The city ids of snapshot entries, in order. */
  function ChoiceIds(choices: seq<CityChoice>): (r: seq<string>)
    ensures |r| == |choices| && forall i :: 0 <= i < |choices| ==> r[i] == choices[i].cityId
  {
    seq(|choices|, i requires 0 <= i < |choices| => choices[i].cityId)
  }

  /** The selection is the subsequence of snapshot ids whose field was posted, in snapshot order. */
  lemma {:induction false} SelectedCitiesInOrder(choices: seq<CityChoice>, posted: set<string>)
    ensures SelectedCities(choices, posted) == ChoiceIds(Select(choices, (c: CityChoice) => c.cityId in posted, true))
    decreases |choices|
  {
    if |choices| > 0 {
      SelectedCitiesInOrder(choices[1..], posted);
      var rest := Select(choices[1..], (c: CityChoice) => c.cityId in posted, true);
      if choices[0].cityId in posted {
        assert ChoiceIds([choices[0]] + rest) == [choices[0].cityId] + ChoiceIds(rest);
      }
    }
  }

  /** The session keys `modify_trip` reads, in the order it reads them. */
  function EditContext(s: Session): (r: Result<(seq<CityChoice>, string, string), Fault>)
    ensures r.Ok? <==> s.citiesData.Some? && s.tripId.Some? && s.userId.Some?
    ensures r.Ok? ==> r.value == (s.citiesData.value, s.tripId.value, s.userId.value)
    ensures s.citiesData.None? ==> r == Err(MissingSessionKey("cities_data"))
    ensures s.citiesData.Some? && s.tripId.None? ==> r == Err(MissingSessionKey("trip_id"))
    ensures s.citiesData.Some? && s.tripId.Some? && s.userId.None? ==> r == Err(MissingSessionKey("user_id"))
  {
    match (s.citiesData, s.tripId, s.userId)
    case (None, _, _) => Err(MissingSessionKey("cities_data"))
    case (_, None, _) => Err(MissingSessionKey("trip_id"))
    case (_, _, None) => Err(MissingSessionKey("user_id"))
    case (Some(cs), Some(tid), Some(uid)) => Ok((cs, tid, uid))
  }

  /** The response of `modify_trip` once the update has answered. */
  function Modified(s: Session, u: Update): (o: Outcome)
    ensures o.db == u.db && o.session == s
    ensures u.success ==> o.response.UserMenu? || o.response.ServerError?
    ensures u.success && Integrity(u.db) ==>
              TripsWithDestinations(u.db, s.userId).Ok? &&
              o.response == UserMenu(TripModified, TripsWithDestinations(u.db, s.userId).value)
    ensures !u.success ==> o.response == TripList(ModifyFailed, TripsForUser(u.db, s.userId))
  {
    if u.success then Menu(u.db, s, s.userId, TripModified)
    else Outcome(u.db, s, TripList(ModifyFailed, TripsForUser(u.db, s.userId)))
  }

  /**
   * `modify_trip` as written: select the posted cities of the snapshot and
   * hand everything to `update_trip`.
   */
  function ModifyTrip(db: Store, s: Session, associates: string, tripDate: int, totalCost: int,
                      posted: set<string>, newIds: seq<string>): (o: Outcome)
    requires s.citiesData.Some? ==> |newIds| >= |s.citiesData.value|
    ensures o.session == s
    ensures EditContext(s).Err? ==> o == Outcome(db, s, ServerError(EditContext(s).error))
    ensures EditContext(s).Ok? ==> (
              var (choices, tripId, userId) := EditContext(s).value;
              var selected := SelectedCities(choices, posted);
              var u := UpdateTrip(db, tripId, associates, tripDate, totalCost, selected, userId, newIds);
              o.db == u.db && (u.success <==> !o.response.TripList?))
  {
    match EditContext(s)
    case Err(f) => Outcome(db, s, ServerError(f))
    case Ok((choices, tripId, userId)) =>
      var selected := SelectedCities(choices, posted);
      Modified(s, UpdateTrip(db, tripId, associates, tripDate, totalCost, selected, userId, newIds))
  }

  /** `modify_trip` on top of the corrected update: a refused edit leaves the store as it was. */
  function ModifyTripChecked(db: Store, s: Session, associates: string, tripDate: int, totalCost: int,
                             posted: set<string>, newIds: seq<string>): (o: Outcome)
    requires s.citiesData.Some? ==> |newIds| >= |s.citiesData.value|
    ensures o.session == s
    ensures o.response.TripList? ==> o.db == db
    ensures EditContext(s).Err? ==> o == Outcome(db, s, ServerError(EditContext(s).error))
  {
    match EditContext(s)
    case Err(f) => Outcome(db, s, ServerError(f))
    case Ok((choices, tripId, userId)) =>
      var selected := SelectedCities(choices, posted);
      Modified(s, UpdateTripChecked(db, tripId, associates, tripDate, totalCost, selected, userId, newIds))
  }

  // ---------------------------------------------------------------- delete

  /** `delete_data`: delete the trip (and, by cascade, its links), then redirect to the menu. */
  function DeleteData(db: Store, s: Session, tripId: string): (o: Outcome)
    ensures o.session == s && o.response == RedirectToUserMenu
    ensures o.db.users == db.users && o.db.cities == db.cities
    ensures forall t :: t in o.db.trips <==> t in db.trips && t.id != tripId
    ensures forall l :: l in o.db.links <==> l in db.links && l.tripId != tripId
    ensures Integrity(db) && tripId !in TripIds(db) ==> o.db == db
  {
    assert Integrity(db) && tripId !in TripIds(db) ==> DeleteTrip(db, tripId) == db by {
      if Integrity(db) && tripId !in TripIds(db) { DeleteMissingTripIsNoop(db, tripId); }
    }
    Outcome(DeleteTrip(db, tripId), s, RedirectToUserMenu)
  }
}

=== FILE: wrappers.dfy ===
/** The optional value and the success-or-failure value every other module returns. */
module Wrappers {

  datatype Option<T> = None | Some(value: T)

  datatype Result<T, E> = Ok(value: T) | Err(error: E)
}
